=== FILE: README.md ===
# Tech detector: finding-list bookkeeping

This project models the bookkeeping core of a browser extension that detects the technologies
a web page is built with. Every detection result is a **report**: eight fixed categories
(frameworks, CSS frameworks, analytics, CMS, libraries, backend, databases, hosting). Each
category holds an ordered list of **findings** `{name, version?, inferred?, via?}`. The model
covers these parts:

- **background context.** `mergeDetections` folds each `techDetected` payload into a per-tab
  cache. The union is keyed by name and the first occurrence wins. The context also answers
  `getTechData` and tracks the active tab.
- **content script rules.**
  - The guarded add `if (!list.find(e => e.name === n)) list.push(item)`.
  - The backend post-processing at the end of `detect()`.
  - The inferences PHP-CMS ⇒ PHP and Supabase ⇒ PostgreSQL.
  - The header confirmation of hosting providers, which sets `via`.
  - The findings the resource scan, the request hooks and the response hooks add.
  - The pure classifiers those rules call: URL regexes, response-header tests, clamps on
    settings, and chunk-URL selection.
- **popup.** The badge text of a finding, the placeholder for an empty category, and the
  fixed order of the eight category sections.
- **translations.** `t(key)`, a dotted-path lookup that falls back to the key itself, and
  `getCurrentLanguage`.

Files:

- `strings.dfy`: `Options` (an optional value, JavaScript's `undefined`) and `Strings`
  (`includes`, `startsWith`, `endsWith`, ASCII lower-casing, and the anchored regex shape
  `tok(?:[stops]|$)`).
- `findings.dfy`: `Findings`. Holds findings, the guarded add, name filtering, categories,
  message payloads and reports.
- `background.dfy`: `Background`. Holds the merge, the tab cache and the active tab.
- `content_classifiers.dfy`: `ContentClassifiers`. Holds the URL and header predicates, the
  clamps and the chunk selection.
- `content_rules.dfy`: `ContentRules`. Holds post-processing, inference, header
  confirmation, the request, response and resource observers, and the Firebase/Supabase
  step.
- `popup.dfy`: `Popup`. Holds badge text and rendering.
- `translations.dfy`: `Translations`. Holds the two language tables, `split`, the path walk
  and `t`.

How JavaScript values are modelled:

- **Absent values.** An absent property is `None`. `inferred` is a `bool`, and a missing flag
  reads as `false`.
- **Truthiness.**
  - An empty version is hidden.
  - An empty `via` is replaced by `"headers"`.
  - A numeric setting of `0` falls back to its default.
  - Tab id `0` is ignored.
- **Case-insensitive tests.** Regexes with the `i` flag and `toLowerCase()` are modelled
  as ASCII lower-casing.
- **Evidence.** The content script's evidence (DOM, globals, cookies, storage, performance
  entries, response headers) enters as parameters.

Three behaviours of the code that differ from what its other parts suggest; the model
follows the code:

- **Merging never suppresses.** The content script's `detect()` drops a generic `Node.js`
  once `Next.js API` is present (content.js:54-63), but the background merge that
  accumulates later reports for a tab does not repeat that step: `mergeDetections`
  (background.js:49-62) only appends, so a cached `Node.js` survives a later `Next.js API`.
  `MergeDoesNotSuppress` proves that both entries stay, in arrival order.
- **`getTechData` with no cached report.** It answers `null` (background.js:78), not an
  empty report.
- **The Supabase ⇒ PostgreSQL inference is usually skipped.** It runs only when the inline
  Firebase test short-circuits; see Findings.

## Model

| member | source | states |
|---|---|---|
| Findings.AddIfAbsent | background.js:45-47 | The item is appended exactly when no entry has its name, otherwise the list is returned unchanged; the old list is a prefix, the name set grows by exactly the item's name, and a duplicate-free list stays duplicate-free |
| Findings.RemoveName | content.js:56-59 | `filter(b => b.name !== n)`: an entry survives iff its name differs; afterwards no entry has the name, every other name is kept, nothing changes when the name is absent, and uniqueness is preserved |
| Findings.RemoveNameAppend | content.js:58 | Filtering distributes over concatenation, so surviving entries keep their relative order |
| Findings.CategoriesEnumerated | background.js:50-52 | The fixed category list names every category, each exactly once |
| Background.MergeAll | background.js:45-58 | Folding the guarded add over a payload list keeps the base as a prefix, yields exactly the names of base and payload, and stays duplicate-free when the base was, even if the payload repeats a name |
| Background.KeepFirstNames | background.js:46 | The first-occurrence reference union keeps exactly the names of its input |
| Background.MergeAllKeepsFirst | background.js:45-58 | For a duplicate-free base, the fold equals the first-occurrence union of base followed by payload: a later item never alters an existing entry's version, inferred flag or provenance |
| Background.MergeAllIdempotent | background.js:45-58 | Folding the same payload list twice gives the same list as folding it once |
| Background.MergeDetections | background.js:49-62 | Each category of the result is its base list (the all-empty report when there is no base) with the payload's list for that key merged in; a category missing from the payload is unchanged; base lists are prefixes of the result |
| Background.MergeDetectionsNames | background.js:46-58 | After a merge a category holds exactly the names of its base list and the payload's list, and a duplicate-free base category stays duplicate-free |
| Background.MergeIntoNothing | background.js:53-55 | With no cached report every category is the first-occurrence union of the payload's list, or empty when the key is missing |
| Background.MergeDetectionsKeepsFirst | background.js:46-58 | First occurrence wins across base and payload: a merged category equals the first-occurrence union of base then payload |
| Background.MergeDetectionsIdempotent | background.js:49-62 | Merging the same payload twice gives the same report as merging it once |
| Background.MergeIgnoresOtherKeys | background.js:50-59 | Removing a payload property whose name is not one of the eight category keys does not change the merged report |
| Background.MergeSingle | background.js:45-58 | A payload with a single finding for one category acts as the guarded add on that category |
| Background.MergeDoesNotSuppress | background.js:49-62 | A cached `Node.js` entry survives a later payload reporting `Next.js API`; the backend holds both, in arrival order |
| Background.UpdateActiveTab | background.js:32-34 | The active tab changes only to a given non-negative id and is otherwise kept; an active id of at least -1 stays at least -1 |
| Background.OnTechDetected | background.js:67-73 | A message without a sender tab or with tab id 0 leaves the cache unchanged; otherwise only the sender's entry changes, to the merge of its cached report (if any) with the payload |
| Background.TechDataFor | background.js:75-80 | The answer exists exactly when the queried tab has a cached report, and is that report |
| Background.QueryAfterDetected | background.js:67-80 | After a tab reports, querying it returns a report holding every name the payload carried, duplicate-free when the cached report was |
| ContentClassifiers.CiFindToken | content.js:770-776 | The regex shape `/tok(?:[stops]\|$)/i` holds iff the token occurs, ignoring ASCII case, and ends the string or is followed by a stop character |
| ContentClassifiers.IsPhpUrl | content.js:883 | `/\.php(\?\|$)/i` holds iff `.php` occurs in any case followed by `?` or the end |
| ContentClassifiers.IsAspxUrl | content.js:889 | `/\.aspx(\?\|$)/i` holds iff `.aspx` occurs in any case followed by `?` or the end |
| ContentClassifiers.IsSupabaseRestUrl | content.js:895 | Holds iff `/rest/v1`, `/auth/v1` or `/realtime/v1` occurs, ignoring case |
| ContentClassifiers.IsFirebaseUrl | content.js:901 | Holds iff one of the four Firebase host patterns occurs, ignoring case |
| ContentClassifiers.IsRpcResourceUrl | content.js:781 | `/\/(trpc\|graphql)(\?\|\/\|$)/i` holds iff `/trpc` or `/graphql` occurs in any case followed by `?`, `/` or the end |
| ContentClassifiers.IsSupabaseHost | content.js:862 | The case-sensitive host test holds iff `supabase.co` occurs; its `supabase.com` alternative is implied by the first |
| ContentClassifiers.NestSignalOnServer | content.js:929 | A `server` value containing `nestjs` fires the NestJS test |
| ContentClassifiers.HeaderTimeoutMs | content.js:577 | The probe timeout lies in [200, 2000], is 800 for an absent or zero setting, and is the setting itself inside the range |
| ContentClassifiers.ChunkLimit | content.js:820 | The chunk cap lies in [1, 50], is 15 for an absent or zero setting, and is the setting itself inside the range |
| ContentClassifiers.ChunkTimeBudgetMs | content.js:821 | The time budget lies in [100, 2000], is 500 for an absent or zero setting, and is the setting itself inside the range |
| ContentClassifiers.ClampsAreStable | content.js:577-821 | Clamping an already clamped value changes nothing |
| ContentClassifiers.ChunkUrls | content.js:822 | A URL is selected iff it is in the input and is a Next.js chunk script |
| ContentClassifiers.ChunkUrlsAppend | content.js:822 | The filter keeps chunk URLs in their original relative order |
| ContentClassifiers.SelectChunks | content.js:822-823 | The single-pass selection returns exactly the first `limit` chunk URLs of the filter, so at most `limit` URLs, each a chunk URL of the input |
| ContentRules.PostProcessBackend | content.js:54-63 | With `Next.js API` present every `Node.js` entry is dropped and the rest kept; a non-empty backend without it is unchanged; an empty backend gains one inferred `Next.js (runtime)` exactly when the page is Next.js; `Node.js` and `Next.js API` never coexist afterwards |
| ContentRules.PostProcessIdempotent | content.js:54-63 | Applying the post-processing twice equals applying it once |
| ContentRules.InferPhp | content.js:425-431 | When a PHP-based CMS is present and the backend has no `PHP`, exactly one inferred `PHP` is appended; otherwise the backend is unchanged |
| ContentRules.InferPostgres | content.js:759-762 | Afterwards Supabase present implies PostgreSQL present; an existing PostgreSQL entry, or a list without Supabase, is left untouched; the only name ever added is PostgreSQL |
| ContentRules.InferPostgresIdempotent | content.js:759-762 | Applying the inference a second time changes nothing |
| ContentRules.AddSupabasePair | content.js:862-866 | Supabase absent: `Supabase` and an inferred `PostgreSQL` are appended together; Supabase present: no change; afterwards Supabase is present |
| ContentRules.SupabasePairMayDuplicate | content.js:862-866 | Because the PostgreSQL push is unguarded, a list holding PostgreSQL but not Supabase ends up with two PostgreSQL entries |
| ContentRules.ConfirmViaHeaders | content.js:586-592 | An absent provider is appended with `via: 'headers'`; a present one gets no new entry and only its first entry's `via` changes, and only when it was unset or empty; afterwards the provider is confirmed |
| ContentRules.ConfirmViaHeadersIdempotent | content.js:586-592 | Confirming the same provider twice gives the same list as confirming it once |
| ContentRules.ConfirmWhen | content.js:586-594 | A provider test confirms its provider exactly when its signal holds and otherwise leaves the list alone; only that provider's entry can change, and only its `via` |
| ContentRules.ConfirmsOnlyTrans | content.js:586-592 | Two rounds of header confirmation change no more than one round over the union of their providers, since `existing.via || 'headers'` applied twice equals applying it once |
| ContentRules.VercelNetlifyFromHeaders | content.js:583-605 | Vercel and Netlify are present afterwards iff present before or their headers are present; each whose headers are present ends up confirmed; no entry other than a provider's `via` changes and every appended entry is a `via: 'headers'` provider entry |
| ContentRules.HostingFromHeaders | content.js:582-629 | Each of Vercel, Netlify, Cloudflare and AWS is present afterwards iff it was before or its headers are present; every provider whose headers are present ends up confirmed, even after the later providers are confirmed; no entry other than a provider's `via` changes (a provider entry's `via` only becomes `via \|\| 'headers'`, every other entry stays as it was), every appended entry is a `via: 'headers'` entry for one of the four providers, and uniqueness is preserved |
| ContentRules.ConfirmKeepsConfirmed | content.js:584-617 | Confirming one provider leaves the confirmation of every other, already confirmed provider in place |
| ContentRules.FrameworksFromResponse | content.js:913-933 | Express.js, Fastify and NestJS are present afterwards iff present before or their lower-cased header test holds; every appended entry is a plain finding whose name was absent before it |
| ContentRules.BackendFromResponse | content.js:913-939 | Express.js, Fastify, NestJS and Node.js are present afterwards iff present before or their lower-cased `x-powered-by`/`server` test holds; every added entry is a plain finding (not inferred, no version or provenance) whose name was absent from the list before it, so each name is appended at most once; the old list is a prefix and uniqueness is preserved |
| ContentRules.BackendFromResource | content.js:771-800 | For one resource URL, PHP, ASP.NET (`.aspx` or `__VIEWSTATE`) and `Next.js API` are present afterwards iff present before or their test holds; every added entry is a plain finding whose name was absent from the list before it |
| ContentRules.DatabasesFromResource | content.js:787-796 | For one resource URL, Supabase and Firebase are present afterwards iff present before or their URL test holds; an added Supabase is an inferred finding and an added Firebase a plain one; every added entry's name was absent from the list before it |
| ContentRules.ScanResources | content.js:767-802 | The resource scan changes only backend and databases and keeps the old lists as prefixes |
| ContentRules.ScanResourcesAddsFresh | content.js:771-800 | Over the whole scan, every entry appended to backend or databases carries a name absent from the entries before it, and is plain in the backend list, inferred for Supabase and plain otherwise in the database list |
| ContentRules.ScanResourcesKeepsUnique | content.js:771-800 | Every add of the scan is guarded, so duplicate-free backend and database lists stay duplicate-free |
| ContentRules.ScanResourcesFindsBackend | content.js:771-800 | Whatever its position in the list, a resource that passes the PHP, ASP.NET (`.aspx` or `__VIEWSTATE`) or `Next.js API` test leaves that name in the scanned backend |
| ContentRules.ScanResourcesFindsDatabase | content.js:787-796 | Whatever its position in the list, a resource that passes the Supabase REST or Firebase test leaves that name in the scanned databases |
| ContentRules.ScanResourcesBackendSources | content.js:771-800 | A backend name present after the scan was present before or is the name whose test some resource passes |
| ContentRules.ScanResourcesDatabaseSources | content.js:787-796 | A database name present after the scan was present before or is the name whose test some resource passes |
| ContentRules.BackendFromRequestUrl | content.js:869-893 | `Next.js API` (same-origin API path, only when the URL parses), PHP and ASP.NET are present afterwards iff present before or their test holds; every added entry is a plain finding whose name was absent from the list before it |
| ContentRules.DatabasesFromRequestUrl | content.js:862-905 | A name is present afterwards iff it was before, or it is Supabase and the URL has a Supabase host or REST path, or it is PostgreSQL and the URL has a Supabase host while the list lacked Supabase, or it is Firebase and the URL has a Firebase host; a newly added Supabase is a direct finding for a Supabase host, followed by an inferred PostgreSQL, and an inferred one for a REST path only; every added PostgreSQL is inferred and every added Firebase plain; every added entry's name was absent from the entries before it, except the PostgreSQL pushed unguarded right after a host-detected Supabase |
| ContentRules.SupabaseFromRequestUrl | content.js:862-899 | The two Supabase tests of the request hook, the host test first and the REST-path test last: a Supabase host appends a direct Supabase followed by an inferred PostgreSQL when Supabase was absent; a REST path alone appends an inferred Supabase when absent; nothing else is appended, and every appended name was absent before it except that unguarded PostgreSQL |
| ContentRules.ObserveRequestUrl | content.js:858-906 | The request hook changes only the backend and database categories, each by its own update |
| ContentRules.ObserveRequestUrlIdempotent | content.js:858-906 | Observing the same request URL twice equals observing it once |
| ContentRules.FirebaseStepAsWritten | content.js:747-762 | As written, the rest of the pass runs iff scripts contain an inline Firebase init; otherwise the database list is returned unchanged |
| ContentRules.FirebaseStepSkipsInference | content.js:747-762 | As written, a Supabase entry is left without PostgreSQL when there is no inline Firebase init, even if the page markup names a Firebase host |
| ContentRules.FirebaseStep | content.js:747-762 | Corrected step: the pass always continues, Supabase then implies PostgreSQL, and Firebase is present iff it was already or inline init or markup mentions it |
| Translations.CurrentLanguage | translations.js:54-57 | The result always names a table (`en` or `tr`), and it is the browser language's two-letter prefix exactly when that prefix has a table |
| Translations.Split | translations.js:61 | `split('.')` yields at least one piece, no piece contains the separator, and joining the pieces gives the key back |
| Translations.SplitJoin | translations.js:61 | Splitting undoes joining pieces without separators |
| Translations.WalkAppend | translations.js:64-66 | Walking a concatenated path walks its halves in turn |
| Translations.T | translations.js:59-69 | `t(key)` is the value the dotted key resolves to in the current table when that value is truthy, and the key itself otherwise; it is blank only for a blank key |
| Translations.MissingKeyFallsBack | translations.js:64-68 | A key whose first segment names no entry of the current table comes back unchanged |
| Translations.UnknownLanguageUsesEnglish | translations.js:54-62 | A browser language without a table reads every key from the English table |
| Translations.BackendCategoryLabel | translations.js:59-69 | `t('categories.backend')` is "Backend Teknolojileri" for Turkish and "Backend Technologies" otherwise |
| Translations.EnglishNoTechDetected | translations.js:6 | The English placeholder text is "Not detected" |
| Popup.BadgeLabel | popup.js:162-169 | A badge starts with the name; ` <version>` follows exactly when the version is present, non-empty and not `Unknown`; ` *` ends it exactly when the finding is inferred; its length is the sum of those parts |
| Popup.BadgeIgnoresVia | popup.js:162-171 | The provenance never affects the badge text |
| Popup.UnknownVersionHidden | popup.js:163-165 | A version of `Unknown` is labelled as if absent |
| Popup.Badges | popup.js:154-174 | One badge per finding, in list order, duplicates included |
| Popup.BadgesAppend | popup.js:154-174 | Rendering a concatenation renders the parts one after the other |
| Popup.RenderCategory | popup.js:143-175 | An empty category renders as the single `t('noTechDetected')` placeholder; otherwise one badge per finding, with the `t('inferred')` tooltip on inferred ones |
| Popup.EnglishPlaceholder | popup.js:146-151 | In English an empty category reads "Not detected" |
| Popup.RenderReport | popup.js:103-140 | The eight categories are rendered in the fixed order, each into its own container |
| Popup.ElementIdRoundTrip | popup.js:110-139 | Each container id leads back to its category, so distinct categories use distinct containers |
| Popup.RenderReportCoversCategory | popup.js:110-139 | Every category's rows appear at its position in the fixed order |
| Popup.RenderReportIdsDistinct | popup.js:110-139 | No two rendered sections share a container |

## Left out

- Evidence gathering is left out: DOM queries, `innerHTML`/`outerHTML` scans, `window` globals, cookies, `localStorage`, `indexedDB`, performance entries and `location`. These enter as parameters or booleans because they are browser I/O. The per-technology DOM heuristics of `detectFrameworks` through `detectHosting` are not reproduced.
- The monkey-patching of `fetch`, `XMLHttpRequest`, `sendBeacon` and `WebSocket` (content.js:852-1116), its `__TD_*_WRAPPED__` flags and promise chains are left out. Only the pure rules these hooks apply are modelled; the XHR hook (content.js:950-1046) applies the same rules as the fetch hook.
- The header probe's fetch, its `AbortController` timeout and the chunk fetches with their `Date.now()` deadline are left out, because they are network I/O and clocks. The timeout and budget values and the chunk selection are modelled.
- Messaging (`runtime.sendMessage`, `tabs`, `scripting`), `storage.sync` and the options page are left out, because they are extension I/O. `detector.loadSettings?.()` names no method, so detection always uses the defaults at content.js:31-37.
- The popup's retry timers and DOM construction are left out: class names, clipboard and the test-site buttons. The popup's `detectAll()` call names no method.
- Regex heuristics over arbitrary class and script text are left out: Tailwind class detection, tRPC/GraphQL body regexes, and version extraction from globals and script URLs.
- The page-markup `Next.js API` test (content.js:809-814) and the chunk-text Supabase regexes are left out, because they scan page and file contents. The Supabase pair the chunk-text scan pushes is `ContentRules.AddSupabasePair`.
- `Translations.T`: a segment applied to a string, and a segment naming an inherited object property, are treated as missing entries, so `T` returns the key. In JavaScript these lookups differ. An index segment on a string yields one character: `t('noTechDetected.0')` is `"N"` in English. `length` yields a number. An inherited name such as `constructor` yields a function, not the key, so `Translations.MissingKeyFallsBack` does not hold for such keys in the source. The popup requests none of these keys.
- `Strings.Lower` and the case-insensitive classifiers fold ASCII letters only. Every pattern the source matches against is ASCII.
- Numeric settings are integers. `NaN`, fractions and non-numeric settings are not modelled, because the defaults are always used.
- `detect()` as a whole is not claimed duplicate-free. Several adds are unguarded (content.js:374, 402, 443, 469 and the Supabase/PostgreSQL pairs); `ContentRules.SupabasePairMayDuplicate` exhibits one.

## Findings

| source | as written | input that shows it | evidently intended | confidence | as-written member | corrected member |
|---|---|---|---|---|---|---|
| content.js:747-762 | The Firebase test reads `currentPageContent` at content.js:749, before its `const` declaration at content.js:809 in the same block. Unless the inline-script disjunct short-circuits, the read throws, and the catch at content.js:848 swallows it. The Supabase ⇒ PostgreSQL inference, the resource scan, the chunk scan and `setupNetworkListening` are all skipped. | A page whose scripts contain no Firebase init and whose databases already list `Supabase` (`FirebaseStepSkipsInference`) | Read the page markup before the test, so that the Firebase markup patterns apply and the inference and the rest of the pass always run | high (not executed) | ContentRules.FirebaseStepAsWritten | ContentRules.FirebaseStep |

=== FILE: background.dfy ===
/** The background context: it folds every `techDetected` payload into a per-tab cache
    with `mergeDetections`, answers `getTechData` from that cache and tracks the active tab. */
module Background {

  import opened Options
  import opened Findings

  /** `items.forEach(item => mergeCategory(list, item))`: the guarded add applied to every
      item in order (written from the last item backwards, which is the same fold). */
  function MergeAll(list: seq<Finding>, items: seq<Finding>): (r: seq<Finding>)
    ensures list <= r
    ensures |r| <= |list| + |items|
    ensures forall n :: HasName(r, n) <==> HasName(list, n) || HasName(items, n)
    ensures NamesUnique(list) ==> NamesUnique(r)
    decreases |items|
  {
    if |items| == 0 then list
    else
      var prefix := items[..|items| - 1];
      var last := items[|items| - 1];
      assert items == prefix + [last];
      assert forall n :: HasName(items, n) <==> HasName(prefix, n) || last.name == n by {
        forall n ensures HasName(items, n) <==> HasName(prefix, n) || last.name == n {
          HasNameAppend(prefix, [last], n);
        }
      }
      AddIfAbsent(MergeAll(list, prefix), last)
  }

  /** Entry `i` is the first entry of `s` carrying its name. */
  predicate FirstOfName(s: seq<Finding>, i: int)
    requires 0 <= i < |s|
  {
    forall j :: 0 <= j < i ==> s[j].name != s[i].name
  }

  /** Reference definition of a first-occurrence-wins union: keep exactly those entries
      that are the first of their name. */
  function KeepFirst(s: seq<Finding>): seq<Finding>
    decreases |s|
  {
    if |s| == 0 then []
    else KeepFirst(s[..|s| - 1]) + (if FirstOfName(s, |s| - 1) then [s[|s| - 1]] else [])
  }

  lemma {:induction false} KeepFirstNames(s: seq<Finding>, n: string)
    ensures HasName(KeepFirst(s), n) <==> HasName(s, n)
    decreases |s|
  {
    if |s| > 0 {
      var p := s[..|s| - 1];
      var x := s[|s| - 1];
      assert s == p + [x];
      KeepFirstNames(p, n);
      HasNameAppend(p, [x], n);
      var tail := if FirstOfName(s, |s| - 1) then [x] else [];
      HasNameAppend(KeepFirst(p), tail, n);
      if !FirstOfName(s, |s| - 1) && x.name == n {
        var j :| 0 <= j < |s| - 1 && s[j].name == x.name;
        assert p[j].name == n;
      }
    }
  }

  lemma {:induction false} KeepFirstOfUnique(s: seq<Finding>)
    requires NamesUnique(s)
    ensures KeepFirst(s) == s
    decreases |s|
  {
    if |s| > 0 {
      var p := s[..|s| - 1];
      assert s == p + [s[|s| - 1]];
      KeepFirstOfUnique(p);
    }
  }

  /** Appending one entry keeps it exactly when no earlier entry has its name. */
  lemma KeepFirstSnoc(s: seq<Finding>, x: Finding)
    ensures KeepFirst(s + [x]) == KeepFirst(s) + (if HasName(s, x.name) then [] else [x])
  {
    var t := s + [x];
    assert t[..|t| - 1] == s;
    if !FirstOfName(t, |t| - 1) {
      var j :| 0 <= j < |t| - 1 && t[j].name == x.name;
      assert s[j].name == x.name;
    }
    if HasName(s, x.name) {
      var j :| 0 <= j < |s| && s[j].name == x.name;
      assert t[j].name == x.name;
    }
  }

  /** Merging into a duplicate-free list is exactly the first-occurrence-wins union of the
      list followed by the new items: the earliest entry of each name survives, with its
      version, inferred flag and provenance, and the survivors keep their order. */
  lemma {:induction false} MergeAllKeepsFirst(list: seq<Finding>, items: seq<Finding>)
    requires NamesUnique(list)
    ensures MergeAll(list, items) == KeepFirst(list + items)
    decreases |items|
  {
    if |items| == 0 {
      assert list + items == list;
      KeepFirstOfUnique(list);
    } else {
      var prefix := items[..|items| - 1];
      var last := items[|items| - 1];
      var lp := list + prefix;
      var m := MergeAll(list, prefix);
      assert list + items == lp + [last];
      MergeAllKeepsFirst(list, prefix);
      KeepFirstSnoc(lp, last);
      KeepFirstNames(lp, last.name);
      calc {
        MergeAll(list, items);
        AddIfAbsent(m, last);
        KeepFirst(lp) + (if HasName(lp, last.name) then [] else [last]);
        KeepFirst(list + items);
      }
    }
  }

  /** Items whose names are all present already change nothing. */
  lemma {:induction false} MergeAllKnownNames(list: seq<Finding>, items: seq<Finding>)
    requires forall i :: 0 <= i < |items| ==> HasName(list, items[i].name)
    ensures MergeAll(list, items) == list
    decreases |items|
  {
    if |items| > 0 {
      MergeAllKnownNames(list, items[..|items| - 1]);
    }
  }

  /** Merging the same items a second time changes nothing. */
  lemma MergeAllIdempotent(list: seq<Finding>, items: seq<Finding>)
    ensures MergeAll(MergeAll(list, items), items) == MergeAll(list, items)
  {
    var once := MergeAll(list, items);
    forall i | 0 <= i < |items| ensures HasName(once, items[i].name) {
      assert HasName(items, items[i].name);
    }
    MergeAllKnownNames(once, items);
  }

  /** The list category `c` holds after merging payload `extra` into `report`. */
  function MergedList(report: Report, extra: Payload, c: Category): seq<Finding>
  {
    if Key(c) in extra then MergeAll(report.Get(c), extra[Key(c)]) else report.Get(c)
  }

  /** `base || { all eight categories empty }`. */
  function Start(base: Option<Report>): Report
  {
    if base.Some? then base.value else EmptyReport
  }

  /** `mergeDetections(base, extra)`: the loop over the eight fixed categories touches each
      category once and independently of the others, so it is written as one merged list
      per category. Each category of the result is its base list with
      the payload's list of that key merged in; categories the payload lacks keep their base
      list, and existing entries are never removed or reordered. */
  function MergeDetections(base: Option<Report>, extra: Payload): (r: Report)
    ensures forall c :: r.Get(c) == MergedList(Start(base), extra, c)
    ensures forall c :: Start(base).Get(c) <= r.Get(c)
    ensures forall c :: Key(c) !in extra ==> r.Get(c) == Start(base).Get(c)
  {
    var s := Start(base);
    var r := Report(
      MergedList(s, extra, Frameworks),
      MergedList(s, extra, CssFrameworks),
      MergedList(s, extra, Analytics),
      MergedList(s, extra, Cms),
      MergedList(s, extra, Libraries),
      MergedList(s, extra, Backend),
      MergedList(s, extra, Databases),
      MergedList(s, extra, Hosting));
    assert forall c :: r.Get(c) == MergedList(s, extra, c) by {
      forall c ensures r.Get(c) == MergedList(s, extra, c) {
        if c == Frameworks {
        } else if c == CssFrameworks {
        } else if c == Analytics {
        } else if c == Cms {
        } else if c == Libraries {
        } else if c == Backend {
        } else if c == Databases {
        } else {
        }
      }
    }
    r
  }

  /** After a merge a category holds exactly the names of its base list and of the
      payload's list, and it stays duplicate-free even when the payload repeats a name. */
  lemma MergeDetectionsNames(base: Option<Report>, extra: Payload, c: Category)
    ensures forall n :: HasName(MergeDetections(base, extra).Get(c), n) <==>
      HasName(Start(base).Get(c), n) || (Key(c) in extra && HasName(extra[Key(c)], n))
    ensures NamesUnique(Start(base).Get(c)) ==> NamesUnique(MergeDetections(base, extra).Get(c))
  {
  }

  /** With no cached report the merge starts from the all-empty report: each category is
      the first-occurrence union of the payload's list, or empty when the key is missing. */
  lemma MergeIntoNothing(extra: Payload, c: Category)
    ensures MergeDetections(None, extra).Get(c) == (if Key(c) in extra then KeepFirst(extra[Key(c)]) else [])
  {
    if Key(c) in extra {
      MergeAllKeepsFirst([], extra[Key(c)]);
      assert [] + extra[Key(c)] == extra[Key(c)];
    }
  }

  /** First occurrence wins across the base and the payload: for a duplicate-free base
      list, the merged category is the first-occurrence union of base then payload. */
  lemma MergeDetectionsKeepsFirst(base: Option<Report>, extra: Payload, c: Category)
    requires NamesUnique(Start(base).Get(c))
    requires Key(c) in extra
    ensures MergeDetections(base, extra).Get(c) == KeepFirst(Start(base).Get(c) + extra[Key(c)])
  {
    MergeAllKeepsFirst(Start(base).Get(c), extra[Key(c)]);
  }

  /** Merging the same payload twice gives the same report as merging it once. */
  lemma MergeDetectionsIdempotent(base: Option<Report>, extra: Payload)
    ensures MergeDetections(Some(MergeDetections(base, extra)), extra) == MergeDetections(base, extra)
  {
    var once := MergeDetections(base, extra);
    var twice := MergeDetections(Some(once), extra);
    forall c ensures twice.Get(c) == once.Get(c) {
      if Key(c) in extra {
        MergeAllIdempotent(Start(base).Get(c), extra[Key(c)]);
      }
    }
    ReportExtensional(twice, once);
  }

  /** Payload keys outside the eight categories are ignored. */
  lemma MergeIgnoresOtherKeys(base: Option<Report>, extra: Payload, k: string)
    requires CategoryOfKey(k).None?
    ensures MergeDetections(base, extra) == MergeDetections(base, extra - {k})
  {
    var a := MergeDetections(base, extra);
    var b := MergeDetections(base, extra - {k});
    forall c ensures a.Get(c) == b.Get(c) {
      assert Key(c) in extra <==> Key(c) in extra - {k};
    }
    ReportExtensional(a, b);
  }

  /** A payload carrying a single finding for one category acts as the guarded add. */
  lemma MergeSingle(base: Option<Report>, c: Category, f: Finding)
    ensures MergeDetections(base, map[Key(c) := [f]]).Get(c) == AddIfAbsent(Start(base).Get(c), f)
  {
    var extra := map[Key(c) := [f]];
    var r := MergeDetections(base, extra);
    assert r.Get(c) == MergedList(Start(base), extra, c);
    assert Key(c) in extra;
    assert MergedList(Start(base), extra, c) == MergeAll(Start(base).Get(c), [f]);
    assert [f][..0] == [];
  }

  /** Adding a second name to a one-entry list appends it. */
  lemma AddSecondName(first: Finding, second: Finding)
    requires first.name != second.name
    ensures AddIfAbsent([first], second) == [first, second]
  {
    assert !HasName([first], second.name);
  }

  /** Merging never runs the backend suppression rule: a cached `Node.js` entry survives a
      later payload that reports `Next.js API`, and both stay in arrival order. */
  lemma MergeDoesNotSuppress(node: Finding, api: Finding)
    requires node.name == "Node.js" && api.name == "Next.js API"
    ensures var once := MergeDetections(None, map[Key(Backend) := [node]]);
            MergeDetections(Some(once), map[Key(Backend) := [api]]).backend == [node, api]
  {
    var once := MergeDetections(None, map[Key(Backend) := [node]]);
    MergeSingle(None, Backend, node);
    assert once.backend == AddIfAbsent([], node) == [node];
    var twice := MergeDetections(Some(once), map[Key(Backend) := [api]]);
    MergeSingle(Some(once), Backend, api);
    assert twice.Get(Backend) == AddIfAbsent(once.backend, api);
    AddSecondName(node, api);
    assert twice.backend == twice.Get(Backend);
  }

  /** `updateActiveTab(tabId)`; `tabId` is None when it is not a number. The active tab id
      changes only for a non-negative number, so it stays -1 or a real tab id. */
  function UpdateActiveTab(active: int, tabId: Option<int>): (r: int)
    ensures r == active || (tabId == Some(r) && r >= 0)
    ensures tabId.Some? && tabId.value >= 0 ==> r == tabId.value
    ensures tabId.None? || tabId.value < 0 ==> r == active
    ensures active >= -1 ==> r >= -1
  {
    if tabId.Some? && tabId.value >= 0 then tabId.value else active
  }

  /** Per-tab cache of merged reports, keyed by tab id. */
  type Cache = map<int, Report>

  function CachedFor(cache: Cache, tab: int): Option<Report>
  {
    if tab in cache then Some(cache[tab]) else None
  }

  /** A `techDetected` message from the tab `senderTab` (None when the sender has no tab).
      JavaScript's `if (tabId)` skips a missing id and also the id 0. */
  function OnTechDetected(cache: Cache, senderTab: Option<int>, data: Payload): (r: Cache)
    ensures senderTab.None? || senderTab.value == 0 ==> r == cache
    ensures senderTab.Some? && senderTab.value != 0 ==>
      && r.Keys == cache.Keys + {senderTab.value}
      && r[senderTab.value] == MergeDetections(CachedFor(cache, senderTab.value), data)
    ensures forall t :: t in cache && Some(t) != senderTab ==> t in r && r[t] == cache[t]
  {
    if senderTab.Some? && senderTab.value != 0 then
      var t := senderTab.value;
      var merged := MergeDetections(CachedFor(cache, t), data);
      var r := cache[t := merged];
      assert r.Keys == cache.Keys + {t};
      assert forall u :: u in cache && u != t ==> r[u] == cache[u];
      r
    else cache
  }

  /** `getTechData`: `detectedTechsCache[currentTab?.id] || null`. */
  function TechDataFor(cache: Cache, activeTab: Option<int>): (r: Option<Report>)
    ensures r.Some? <==> activeTab.Some? && activeTab.value in cache
    ensures r.Some? ==> r.value == cache[activeTab.value]
  {
    if activeTab.Some? then CachedFor(cache, activeTab.value) else None
  }

  /** After a tab reports findings, querying that tab returns a report that contains every
      name this report carried, duplicate-free whenever the cached report was. */
  lemma QueryAfterDetected(cache: Cache, tab: int, data: Payload)
    requires tab != 0
    requires tab in cache ==> ReportUnique(cache[tab])
    ensures var answer := TechDataFor(OnTechDetected(cache, Some(tab), data), Some(tab));
            && answer.Some?
            && ReportUnique(answer.value)
            && forall c, n :: Key(c) in data && HasName(data[Key(c)], n) ==> HasName(answer.value.Get(c), n)
  {
    var merged := MergeDetections(CachedFor(cache, tab), data);
    forall c ensures NamesUnique(merged.Get(c)) {
      MergeDetectionsNames(CachedFor(cache, tab), data, c);
    }
    forall c, n | Key(c) in data && HasName(data[Key(c)], n) ensures HasName(merged.Get(c), n) {
      MergeDetectionsNames(CachedFor(cache, tab), data, c);
    }
  }
}

=== FILE: content_classifiers.dfy ===
/** The pure tests the content script applies to request URLs, response headers and its
    settings before any finding is added. */
module ContentClassifiers {

  import opened Options
  import opened Strings

  /** A case-insensitive occurrence of the lower-case ASCII pattern `pat` at index `i` of
      `s`: what a regex literal with the `i` flag matches. */
  predicate CiOccursAt(s: string, pat: string, i: int)
  {
    0 <= i && i + |pat| <= |s| && forall k :: 0 <= k < |pat| ==> LowerChar(s[i + k]) == pat[k]
  }

  lemma LowerOccurs(s: string, pat: string, i: int)
    ensures OccursAt(Lower(s), pat, i) <==> CiOccursAt(s, pat, i)
  {
    if 0 <= i && i + |pat| <= |s| {
      var w := Lower(s)[i..i + |pat|];
      assert forall k :: 0 <= k < |pat| ==> w[k] == LowerChar(s[i + k]);
      if forall k :: 0 <= k < |pat| ==> LowerChar(s[i + k]) == pat[k] {
        assert w == pat;
      }
    }
  }

  lemma LowerContains(s: string, pat: string)
    ensures Contains(Lower(s), pat) <==> exists i :: CiOccursAt(s, pat, i)
  {
    if Contains(Lower(s), pat) {
      var i :| OccursAt(Lower(s), pat, i);
      LowerOccurs(s, pat, i);
    }
    if exists i :: CiOccursAt(s, pat, i) {
      var i :| CiOccursAt(s, pat, i);
      LowerOccurs(s, pat, i);
    }
  }

  /** Characters that lower-casing leaves alone and that no letter lower-cases to. */
  predicate NoLetters(stops: set<char>)
  {
    forall c :: c in stops ==> !('a' <= c <= 'z') && !('A' <= c <= 'Z')
  }

  /** The regex shape `/<tok>(?:[stops]|$)/i` matching at `i`: the lower-case token occurs
      there ignoring case and either ends the string or is followed by a stop character. */
  predicate CiTokenEndsAt(s: string, tok: string, stops: set<char>, i: int)
  {
    CiOccursAt(s, tok, i) && (i + |tok| == |s| || s[i + |tok|] in stops)
  }

  /** Tests `s` for `/<tok>(?:[stops]|$)/i` by lower-casing it and scanning for the token
      followed by a stop character or the end. */
  function CiFindToken(s: string, tok: string, stops: set<char>): (r: bool)
    requires NoLetters(stops)
    ensures r <==> exists i :: CiTokenEndsAt(s, tok, stops, i)
  {
    var low := Lower(s);
    var r := FindTokenEnd(low, tok, stops, 0);
    assert r ==> exists i :: CiTokenEndsAt(s, tok, stops, i) by {
      if r {
        var i :| 0 <= i && TokenEndsAt(low, tok, stops, i);
        LowerOccurs(s, tok, i);
        assert OccursAt(low, tok, i);
        if i + |tok| < |s| {
          assert LowerChar(s[i + |tok|]) in stops;
          assert s[i + |tok|] in stops;
        }
        assert CiTokenEndsAt(s, tok, stops, i);
      }
    }
    assert (exists i :: CiTokenEndsAt(s, tok, stops, i)) ==> r by {
      if exists i :: CiTokenEndsAt(s, tok, stops, i) {
        var i :| CiTokenEndsAt(s, tok, stops, i);
        LowerOccurs(s, tok, i);
        if i + |tok| < |s| {
          assert low[i + |tok|] == s[i + |tok|];
        }
        assert TokenEndsAt(low, tok, stops, i);
      }
    }
    r
  }

  /** `/\.php(\?|$)/i`: a PHP script, with or without a query string. */
  function IsPhpUrl(url: string): (r: bool)
    ensures r <==> exists i :: CiTokenEndsAt(url, ".php", {'?'}, i)
  {
    CiFindToken(url, ".php", {'?'})
  }

  /** `/\.aspx(\?|$)/i`: an ASP.NET page, with or without a query string. */
  function IsAspxUrl(url: string): (r: bool)
    ensures r <==> exists i :: CiTokenEndsAt(url, ".aspx", {'?'}, i)
  {
    CiFindToken(url, ".aspx", {'?'})
  }

  /** `/\/rest\/v1|\/auth\/v1|\/realtime\/v1/i`: a Supabase REST, auth or realtime path,
      anywhere in the URL and in any letter case. */
  function IsSupabaseRestUrl(url: string): (r: bool)
    ensures r <==> exists i :: CiOccursAt(url, "/rest/v1", i) || CiOccursAt(url, "/auth/v1", i)
                              || CiOccursAt(url, "/realtime/v1", i)
  {
    var low := Lower(url);
    LowerContains(url, "/rest/v1");
    LowerContains(url, "/auth/v1");
    LowerContains(url, "/realtime/v1");
    Contains(low, "/rest/v1") || Contains(low, "/auth/v1") || Contains(low, "/realtime/v1")
  }

  /** `/firebaseio\.com|firestore\.googleapis\.com|identitytoolkit\.googleapis\.com|gstatic\.com\/firebasejs/i`. */
  function IsFirebaseUrl(url: string): (r: bool)
    ensures r <==> exists i :: CiOccursAt(url, "firebaseio.com", i) || CiOccursAt(url, "firestore.googleapis.com", i)
                              || CiOccursAt(url, "identitytoolkit.googleapis.com", i)
                              || CiOccursAt(url, "gstatic.com/firebasejs", i)
  {
    var low := Lower(url);
    LowerContains(url, "firebaseio.com");
    LowerContains(url, "firestore.googleapis.com");
    LowerContains(url, "identitytoolkit.googleapis.com");
    LowerContains(url, "gstatic.com/firebasejs");
    Contains(low, "firebaseio.com") || Contains(low, "firestore.googleapis.com")
    || Contains(low, "identitytoolkit.googleapis.com") || Contains(low, "gstatic.com/firebasejs")
  }

  /** `/\/(trpc|graphql)(\?|\/|$)/i`, the resource scan's RPC test: `/trpc` or `/graphql`,
      in any letter case, followed by `?`, `/` or the end of the URL. */
  function IsRpcResourceUrl(url: string): (r: bool)
    ensures r <==> exists i :: CiTokenEndsAt(url, "/trpc", {'?', '/'}, i) || CiTokenEndsAt(url, "/graphql", {'?', '/'}, i)
  {
    CiFindToken(url, "/trpc", {'?', '/'}) || CiFindToken(url, "/graphql", {'?', '/'})
  }

  /** `url.includes('supabase.co') || url.includes('supabase.com')`, case-sensitive. The
      second test adds nothing: every URL containing `supabase.com` contains `supabase.co`. */
  function IsSupabaseHost(url: string): (r: bool)
    ensures r <==> exists i :: OccursAt(url, "supabase.co", i)
  {
    var r := Contains(url, "supabase.co") || Contains(url, "supabase.com");
    assert Contains(url, "supabase.com") ==> Contains(url, "supabase.co") by {
      if Contains(url, "supabase.com") {
        var i :| OccursAt(url, "supabase.com", i);
        assert url[i..i + 11] == url[i..i + 12][..11];
        assert OccursAt(url, "supabase.co", i);
      }
    }
    r
  }

  /** The part of `new URL(url, location.href)` the request hooks read. */
  datatype ParsedUrl = ParsedUrl(sameOrigin: bool, pathname: string)

  /** The request hooks' Next.js API test: a same-origin request whose path contains
      `/api/` or `/graphql`, or starts with `/trpc` (all case-sensitive). */
  predicate IsSameOriginApi(u: ParsedUrl)
  {
    u.sameOrigin
    && (Contains(u.pathname, "/api/") || StartsWith(u.pathname, "/trpc") || Contains(u.pathname, "/graphql"))
  }

  /** `(headers.get(k) || '').toLowerCase()` for a header value that may be absent. */
  function HeaderText(value: Option<string>): string
  {
    if value.Some? then Lower(value.value) else ""
  }

  /** The backend the response-header classifier reports, by the lower-cased
      `x-powered-by` and `server` values it reads. */
  predicate ExpressSignal(xpb: string, server: string)
  {
    Contains(xpb, "express") || Contains(server, "express")
  }

  predicate FastifySignal(xpb: string, server: string)
  {
    Contains(xpb, "fastify") || Contains(server, "fastify")
  }

  predicate NestSignal(xpb: string, server: string)
  {
    Contains(xpb, "nestjs") || Contains(server, "nest")
  }

  predicate NodeSignal(server: string)
  {
    Contains(server, "node")
  }

  /** A `server` value that names `nestjs` fires the NestJS test, because the `server` side
      of the test only looks for its prefix `nest`. */
  lemma NestSignalOnServer(xpb: string, server: string)
    requires Contains(server, "nestjs")
    ensures NestSignal(xpb, server)
  {
    var i :| OccursAt(server, "nestjs", i);
    assert server[i..i + 4] == server[i..i + 6][..4];
    assert OccursAt(server, "nest", i);
  }

  /** JavaScript `value || fallback` for a numeric setting: an absent setting and 0 are falsy. */
  function SettingOr(setting: Option<int>, fallback: int): int
  {
    if setting.Some? && setting.value != 0 then setting.value else fallback
  }

  /** `Math.max(lo, Math.min(hi, v))`. */
  function Clamp(lo: int, hi: int, v: int): int
  {
    var m := if v < hi then v else hi;
    if lo > m then lo else m
  }

  /** The header-probe timeout:
      `Math.max(200, Math.min(2000, settings.headerDetectionTimeoutMs || 800))`. */
  function HeaderTimeoutMs(setting: Option<int>): (ms: int)
    ensures 200 <= ms <= 2000
    ensures setting.None? || setting.value == 0 ==> ms == 800
    ensures setting.Some? && 200 <= setting.value <= 2000 ==> ms == setting.value
    ensures setting.Some? && setting.value != 0 && setting.value < 200 ==> ms == 200
    ensures setting.Some? && setting.value > 2000 ==> ms == 2000
  {
    Clamp(200, 2000, SettingOr(setting, 800))
  }

  /** The chunk-scan file cap: `Math.max(1, Math.min(50, settings.chunkScanMaxFiles || 15))`. */
  function ChunkLimit(setting: Option<int>): (n: int)
    ensures 1 <= n <= 50
    ensures setting.None? || setting.value == 0 ==> n == 15
    ensures setting.Some? && 1 <= setting.value <= 50 ==> n == setting.value
    ensures setting.Some? && setting.value < 0 ==> n == 1
    ensures setting.Some? && setting.value > 50 ==> n == 50
  {
    Clamp(1, 50, SettingOr(setting, 15))
  }

  /** The chunk-scan time budget: `Math.max(100, Math.min(2000, settings.chunkScanMaxTimeMs || 500))`. */
  function ChunkTimeBudgetMs(setting: Option<int>): (ms: int)
    ensures 100 <= ms <= 2000
    ensures setting.None? || setting.value == 0 ==> ms == 500
    ensures setting.Some? && 100 <= setting.value <= 2000 ==> ms == setting.value
    ensures setting.Some? && setting.value != 0 && setting.value < 100 ==> ms == 100
    ensures setting.Some? && setting.value > 2000 ==> ms == 2000
  {
    Clamp(100, 2000, SettingOr(setting, 500))
  }

  /** Clamping an already clamped value changes nothing. */
  lemma ClampsAreStable(setting: Option<int>)
    ensures HeaderTimeoutMs(Some(HeaderTimeoutMs(setting))) == HeaderTimeoutMs(setting)
    ensures ChunkLimit(Some(ChunkLimit(setting))) == ChunkLimit(setting)
    ensures ChunkTimeBudgetMs(Some(ChunkTimeBudgetMs(setting))) == ChunkTimeBudgetMs(setting)
  {
  }

  /** A URL the chunk scan may fetch: a Next.js static chunk script. */
  predicate IsChunkUrl(u: string)
  {
    Contains(u, "/_next/static/chunks/") && EndsWith(u, ".js")
  }

  /** `urls.filter(isChunk)`, as a reference definition. */
  function ChunkUrls(urls: seq<string>): (r: seq<string>)
    ensures forall u :: u in r <==> u in urls && IsChunkUrl(u)
    ensures |r| <= |urls|
    decreases |urls|
  {
    if |urls| == 0 then []
    else
      var prefix := urls[..|urls| - 1];
      assert urls == prefix + [urls[|urls| - 1]];
      assert forall u :: u in urls <==> u in prefix || u == urls[|urls| - 1];
      ChunkUrls(prefix) + (if IsChunkUrl(urls[|urls| - 1]) then [urls[|urls| - 1]] else [])
  }

  /** The filter works URL by URL, so chunk URLs keep their original relative order. */
  lemma {:induction false} ChunkUrlsAppend(a: seq<string>, b: seq<string>)
    ensures ChunkUrls(a + b) == ChunkUrls(a) + ChunkUrls(b)
    decreases |b|
  {
    if |b| == 0 {
      assert a + b == a;
    } else {
      var ab := a + b;
      var b' := b[..|b| - 1];
      var x := b[|b| - 1];
      assert ab[..|ab| - 1] == a + b';
      assert ab[|ab| - 1] == x;
      var tail := if IsChunkUrl(x) then [x] else [];
      assert ChunkUrls(ab) == ChunkUrls(a + b') + tail;
      assert ChunkUrls(b) == ChunkUrls(b') + tail;
      ChunkUrlsAppend(a, b');
    }
  }

  /** `s.slice(0, n)`. */
  function Take(s: seq<string>, n: nat): seq<string>
  {
    if |s| <= n then s else s[..n]
  }

  /** The chunk URLs the scan fetches:
      `urls.filter(u => u.includes('/_next/static/chunks/') && u.endsWith('.js')).slice(0, limit)`,
      computed in one pass that stops collecting once `limit` URLs are chosen. */
  method SelectChunks(urls: seq<string>, limit: nat) returns (chosen: seq<string>)
    ensures chosen == Take(ChunkUrls(urls), limit)
    ensures |chosen| <= limit
    ensures forall u :: u in chosen ==> u in urls && IsChunkUrl(u)
  {
    chosen := [];
    var i := 0;
    while i < |urls|
      invariant 0 <= i <= |urls|
      invariant chosen == Take(ChunkUrls(urls[..i]), limit)
    {
      assert urls[..i + 1][..i] == urls[..i];
      if |chosen| < limit && IsChunkUrl(urls[i]) {
        chosen := chosen + [urls[i]];
      }
      i := i + 1;
    }
    assert urls[..i] == urls;
  }
}

=== FILE: content_rules.dfy ===
/** The content script's bookkeeping rules: the backend post-processing at the end of
    `detect()`, the inference rules (PHP from a PHP CMS, PostgreSQL from Supabase), the
    header confirmation of hosting providers and the findings its request and response
    hooks add. Evidence gathering itself (DOM, globals, cookies, storage) is an input. */
module ContentRules {

  import opened Options
  import opened Strings
  import opened Findings
  import opened ContentClassifiers

  const NextApi := "Next.js API"
  const NodeJs := "Node.js"
  const NextRuntime := "Next.js (runtime)"
  const Supabase := "Supabase"
  const PostgreSql := "PostgreSQL"
  const Firebase := "Firebase"
  const Php := "PHP"

  /** The backend labeling rules of `detect()`: when `Next.js API` is present every generic
      `Node.js` entry is dropped; when the backend is empty on a Next.js page a single
      inferred `Next.js (runtime)` entry is added. */
  function PostProcessBackend(backend: seq<Finding>, isNextJs: bool): (r: seq<Finding>)
    ensures HasName(backend, NextApi) ==> r == RemoveName(backend, NodeJs)
    ensures !HasName(backend, NextApi) && |backend| > 0 ==> r == backend
    ensures |backend| == 0 ==> r == (if isNextJs then [InferredFinding(NextRuntime)] else [])
    ensures HasName(r, NodeJs) ==> !HasName(r, NextApi)
    ensures |r| <= |backend| + 1
    ensures NamesUnique(backend) ==> NamesUnique(r)
  {
    var hasNextApi := HasName(backend, NextApi);
    var filtered := if hasNextApi then RemoveName(backend, NodeJs) else backend;
    if !hasNextApi && |filtered| == 0 && isNextJs then
      filtered + [InferredFinding(NextRuntime)]
    else filtered
  }

  /** Running the post-processing a second time changes nothing. */
  lemma PostProcessIdempotent(backend: seq<Finding>, isNextJs: bool)
    ensures PostProcessBackend(PostProcessBackend(backend, isNextJs), isNextJs)
         == PostProcessBackend(backend, isNextJs)
  {
    var once := PostProcessBackend(backend, isNextJs);
    if HasName(backend, NextApi) {
      assert HasName(once, NextApi);
      assert !HasName(once, NodeJs);
    } else if |backend| == 0 && isNextJs {
      assert once[0].name == NextRuntime;
      assert !HasName(once, NextApi) by {
        assert forall i :: 0 <= i < |once| ==> once[i].name == NextRuntime;
        assert NextRuntime != NextApi by {
          assert NextRuntime[8] != NextApi[8];
        }
      }
    }
  }

  /** The CMS names that imply a PHP backend. */
  const PhpCms: seq<string> := ["WordPress", "Drupal", "Joomla", "Magento", "OpenCart", "PrestaShop", "WooCommerce"]

  /** Some detected CMS is one of the PHP-based ones. */
  predicate PhpBacked(cms: seq<Finding>)
  {
    exists i :: 0 <= i < |cms| && cms[i].name in PhpCms
  }

  /** PHP inferred from a PHP-based CMS: exactly one inferred `PHP` entry is appended when
      such a CMS is present and the backend has no `PHP`; otherwise the backend is unchanged. */
  function InferPhp(cms: seq<Finding>, backend: seq<Finding>): (r: seq<Finding>)
    ensures backend <= r
    ensures PhpBacked(cms) && !HasName(backend, Php) ==> r == backend + [InferredFinding(Php)]
    ensures !PhpBacked(cms) || HasName(backend, Php) ==> r == backend
    ensures PhpBacked(cms) ==> HasName(r, Php)
    ensures NamesUnique(backend) ==> NamesUnique(r)
  {
    if PhpBacked(cms) then AddIfAbsent(backend, InferredFinding(Php)) else backend
  }

  /** PostgreSQL inferred from Supabase: afterwards Supabase present implies PostgreSQL
      present, and an existing PostgreSQL entry is left as it is. */
  function InferPostgres(dbs: seq<Finding>): (r: seq<Finding>)
    ensures HasName(r, Supabase) ==> HasName(r, PostgreSql)
    ensures HasName(dbs, PostgreSql) || !HasName(dbs, Supabase) ==> r == dbs
    ensures HasName(dbs, Supabase) && !HasName(dbs, PostgreSql) ==> r == dbs + [InferredFinding(PostgreSql)]
    ensures forall n :: HasName(r, n) <==> HasName(dbs, n) || (n == PostgreSql && HasName(dbs, Supabase))
    ensures NamesUnique(dbs) ==> NamesUnique(r)
  {
    if HasName(dbs, Supabase) then AddIfAbsent(dbs, InferredFinding(PostgreSql)) else dbs
  }

  /** Applying the PostgreSQL inference again changes nothing. */
  lemma InferPostgresIdempotent(dbs: seq<Finding>)
    ensures InferPostgres(InferPostgres(dbs)) == InferPostgres(dbs)
  {
  }

  /** The Supabase add used by the storage, cookie and request-host rules: `Supabase` and an
      inferred `PostgreSQL` are pushed together when Supabase is absent; only Supabase is
      guarded. */
  function AddSupabasePair(dbs: seq<Finding>): (r: seq<Finding>)
    ensures HasName(r, Supabase)
    ensures !HasName(dbs, Supabase) ==> HasName(r, PostgreSql)
    ensures HasName(dbs, Supabase) ==> r == dbs
    ensures !HasName(dbs, Supabase) ==> r == dbs + [Named(Supabase), InferredFinding(PostgreSql)]
    ensures forall n :: HasName(r, n) ==> HasName(dbs, n) || n == Supabase || n == PostgreSql
  {
    if HasName(dbs, Supabase) then dbs
    else
      var r := dbs + [Named(Supabase), InferredFinding(PostgreSql)];
      assert r[|dbs|].name == Supabase && r[|dbs| + 1].name == PostgreSql;
      assert forall n :: HasName(r, n) ==> HasName(dbs, n) || n == Supabase || n == PostgreSql by {
        forall n | HasName(r, n) ensures HasName(dbs, n) || n == Supabase || n == PostgreSql {
          HasNameAppend(dbs, [Named(Supabase), InferredFinding(PostgreSql)], n);
        }
      }
      r
  }

  /** The unguarded PostgreSQL push duplicates a PostgreSQL entry found earlier (for
      example from inline script text) when Supabase is detected afterwards. */
  lemma SupabasePairMayDuplicate(dbs: seq<Finding>)
    requires HasName(dbs, PostgreSql) && !HasName(dbs, Supabase)
    ensures !NamesUnique(AddSupabasePair(dbs))
  {
    var i :| 0 <= i < |dbs| && dbs[i].name == PostgreSql;
    var r := AddSupabasePair(dbs);
    assert r[i].name == r[|dbs| + 1].name;
  }

  /** `existing.via || 'headers'`: an unset or empty provenance becomes "headers". */
  function ConfirmedVia(via: Option<string>): Option<string>
  {
    if via.Some? && via.value != "" then via else Some("headers")
  }

  /** Index of the entry `list.find(e => e.name === n)` returns. */
  function FirstIndex(list: seq<Finding>, n: string): (i: nat)
    requires HasName(list, n)
    ensures i < |list| && list[i].name == n
    ensures forall j :: 0 <= j < i ==> list[j].name != n
  {
    if list[0].name == n then 0
    else
      assert HasName(list[1..], n) by {
        var k :| 0 <= k < |list| && list[k].name == n;
        assert list[1..][k - 1].name == n;
      }
      1 + FirstIndex(list[1..], n)
  }

  /** The entry for `n` has been confirmed: the first entry of that name carries a
      non-empty provenance. */
  predicate Confirmed(list: seq<Finding>, n: string)
  {
    HasName(list, n) && var v := list[FirstIndex(list, n)].via; v.Some? && v.value != ""
  }

  /** Header confirmation of a hosting provider: an absent provider is appended with
      `via: 'headers'`; a present one gets no new entry, and only its provenance is set, and
      only when it was unset. */
  function ConfirmViaHeaders(hosting: seq<Finding>, n: string): (r: seq<Finding>)
    ensures !HasName(hosting, n) ==> r == hosting + [Finding(n, None, false, Some("headers"))]
    ensures HasName(hosting, n) ==>
      && |r| == |hosting|
      && var i := FirstIndex(hosting, n);
         && (forall j :: 0 <= j < |r| && j != i ==> r[j] == hosting[j])
         && r[i] == hosting[i].(via := ConfirmedVia(hosting[i].via))
    ensures Confirmed(hosting, n) ==> r == hosting
    ensures Confirmed(r, n)
    ensures forall m :: HasName(r, m) <==> HasName(hosting, m) || m == n
    ensures NamesUnique(hosting) ==> NamesUnique(r)
  {
    if HasName(hosting, n) then
      var i := FirstIndex(hosting, n);
      var r := hosting[i := hosting[i].(via := ConfirmedVia(hosting[i].via))];
      assert forall j :: 0 <= j < |r| ==> r[j].name == hosting[j].name;
      assert forall m :: HasName(r, m) <==> HasName(hosting, m) by {
        forall m ensures HasName(r, m) <==> HasName(hosting, m) {
          if HasName(r, m) {
            var k :| 0 <= k < |r| && r[k].name == m;
            assert hosting[k].name == m;
          }
          if HasName(hosting, m) {
            var k :| 0 <= k < |hosting| && hosting[k].name == m;
            assert r[k].name == m;
          }
        }
      }
      assert FirstIndex(r, n) == i by {
        var f := FirstIndex(r, n);
        assert f <= i;
        assert hosting[f].name == n;
      }
      r
    else
      var item := Finding(n, None, false, Some("headers"));
      var r := hosting + [item];
      assert r == AddIfAbsent(hosting, item);
      assert FirstIndex(r, n) == |hosting|;
      r
  }

  /** The entry `find` returns is the one at the first position carrying the name. */
  lemma FirstIndexIs(list: seq<Finding>, n: string, i: nat)
    requires i < |list| && list[i].name == n
    requires forall j :: 0 <= j < i ==> list[j].name != n
    ensures HasName(list, n) && FirstIndex(list, n) == i
  {
    var f := FirstIndex(list, n);
    assert !(f < i);
  }

  /** Confirming one provider leaves another provider's confirmation in place. */
  lemma ConfirmKeepsConfirmed(hosting: seq<Finding>, n: string, m: string)
    requires m != n && Confirmed(hosting, m)
    ensures Confirmed(ConfirmViaHeaders(hosting, n), m)
  {
    var r := ConfirmViaHeaders(hosting, n);
    var k := FirstIndex(hosting, m);
    assert r[k] == hosting[k];
    assert forall j :: 0 <= j < k ==> r[j].name == hosting[j].name;
    FirstIndexIs(r, m, k);
  }

  /** Confirming the same provider twice gives the same list as confirming it once. */
  lemma ConfirmViaHeadersIdempotent(hosting: seq<Finding>, n: string)
    ensures ConfirmViaHeaders(ConfirmViaHeaders(hosting, n), n) == ConfirmViaHeaders(hosting, n)
  {
  }

  /** `r` differs from `before` only as header confirmation of providers in `names` can make
      it differ: an existing entry is kept, or, when it carries one of `names`, has its
      provenance set by `ConfirmedVia`; an appended entry is a fresh `via: 'headers'` entry
      for one of `names`. */
  predicate ConfirmsOnly(before: seq<Finding>, r: seq<Finding>, names: set<string>)
  {
    && |before| <= |r|
    && (forall i :: 0 <= i < |before| ==>
          || r[i] == before[i]
          || (before[i].name in names && r[i] == before[i].(via := ConfirmedVia(before[i].via))))
    && (forall i :: |before| <= i < |r| ==>
          r[i].name in names && r[i] == Finding(r[i].name, None, false, Some("headers")))
  }

  /** Confirmations compose: two rounds of confirmation change no more than one round over
      the union of their providers, because `ConfirmedVia` is idempotent. */
  lemma ConfirmsOnlyTrans(a: seq<Finding>, b: seq<Finding>, c: seq<Finding>,
                          n1: set<string>, n2: set<string>, names: set<string>)
    requires ConfirmsOnly(a, b, n1) && ConfirmsOnly(b, c, n2)
    requires n1 <= names && n2 <= names
    ensures ConfirmsOnly(a, c, names)
  {
    forall i | 0 <= i < |a|
      ensures c[i] == a[i] || (a[i].name in names && c[i] == a[i].(via := ConfirmedVia(a[i].via)))
    {
      if c[i] != a[i] {
        assert b[i].name == a[i].name;
        assert ConfirmedVia(ConfirmedVia(a[i].via)) == ConfirmedVia(a[i].via);
      }
    }
    forall i | |a| <= i < |c|
      ensures c[i].name in names && c[i] == Finding(c[i].name, None, false, Some("headers"))
    {
      if i < |b| {
        assert ConfirmedVia(b[i].via) == b[i].via;
      }
    }
  }

  /** The response headers of the header probe, by lower-case header name. */
  type Headers = map<string, string>

  /** `hv(k)`: the lower-cased header value, or "" when the header is absent. */
  function Hv(headers: Headers, k: string): string
  {
    HeaderText(if k in headers then Some(headers[k]) else None)
  }

  predicate VercelHeaders(h: Headers)
  {
    Hv(h, "x-vercel-id") != "" || Hv(h, "x-vercel-cache") != ""
    || Contains(Hv(h, "server"), "vercel") || Hv(h, "x-now-trace") != ""
  }

  predicate NetlifyHeaders(h: Headers)
  {
    Hv(h, "x-nf-request-id") != "" || Contains(Hv(h, "server"), "netlify")
  }

  predicate CloudflareHeaders(h: Headers)
  {
    Hv(h, "cf-ray") != "" || Contains(Hv(h, "server"), "cloudflare")
  }

  predicate CloudFrontHeaders(h: Headers)
  {
    Contains(Hv(h, "server"), "cloudfront") || Hv(h, "x-amz-cf-id") != ""
  }

  /** `if (signal) confirm(n)`: one provider test of the header probe. */
  function ConfirmWhen(hosting: seq<Finding>, signal: bool, n: string): (r: seq<Finding>)
    ensures signal ==> Confirmed(r, n)
    ensures !signal ==> r == hosting
    ensures forall m :: HasName(r, m) <==> HasName(hosting, m) || (signal && m == n)
    ensures |hosting| <= |r|
    ensures ConfirmsOnly(hosting, r, {n})
    ensures NamesUnique(hosting) ==> NamesUnique(r)
  {
    if signal then ConfirmViaHeaders(hosting, n) else hosting
  }

  /** A conditional confirmation leaves another provider's confirmation in place. */
  lemma ConfirmWhenKeepsConfirmed(hosting: seq<Finding>, signal: bool, n: string, m: string)
    requires m != n
    ensures Confirmed(hosting, m) ==> Confirmed(ConfirmWhen(hosting, signal, n), m)
  {
    if signal && Confirmed(hosting, m) {
      ConfirmKeepsConfirmed(hosting, n, m);
    }
  }

  /** The providers the header probe can confirm. */
  const HostingProviders: set<string> := {"Vercel", "Netlify", "Cloudflare", "AWS"}

  /** The first half of the header probe's hosting update: Vercel, then Netlify. */
  function VercelNetlifyFromHeaders(hosting: seq<Finding>, h: Headers): (r: seq<Finding>)
    ensures VercelHeaders(h) ==> Confirmed(r, "Vercel")
    ensures NetlifyHeaders(h) ==> Confirmed(r, "Netlify")
    ensures forall m :: HasName(r, m) <==>
      || HasName(hosting, m)
      || (m == "Vercel" && VercelHeaders(h))
      || (m == "Netlify" && NetlifyHeaders(h))
    ensures ConfirmsOnly(hosting, r, HostingProviders)
    ensures NamesUnique(hosting) ==> NamesUnique(r)
  {
    var h1 := ConfirmWhen(hosting, VercelHeaders(h), "Vercel");
    var r := ConfirmWhen(h1, NetlifyHeaders(h), "Netlify");
    ConfirmWhenKeepsConfirmed(h1, NetlifyHeaders(h), "Netlify", "Vercel");
    ConfirmsOnlyTrans(hosting, h1, r, {"Vercel"}, {"Netlify"}, HostingProviders);
    r
  }

  /** The hosting update of the header probe: Vercel, Netlify, Cloudflare and AWS, in that
      order, each confirmed when its headers are present. Every provider whose headers are
      present ends up confirmed; no entry other than a provider's `via` changes, and no
      other name is added. */
  function HostingFromHeaders(hosting: seq<Finding>, h: Headers): (r: seq<Finding>)
    ensures VercelHeaders(h) ==> Confirmed(r, "Vercel")
    ensures NetlifyHeaders(h) ==> Confirmed(r, "Netlify")
    ensures CloudflareHeaders(h) ==> Confirmed(r, "Cloudflare")
    ensures CloudFrontHeaders(h) ==> Confirmed(r, "AWS")
    ensures forall m :: HasName(r, m) <==>
      || HasName(hosting, m)
      || (m == "Vercel" && VercelHeaders(h))
      || (m == "Netlify" && NetlifyHeaders(h))
      || (m == "Cloudflare" && CloudflareHeaders(h))
      || (m == "AWS" && CloudFrontHeaders(h))
    ensures |hosting| <= |r|
    ensures ConfirmsOnly(hosting, r, HostingProviders)
    ensures forall i :: 0 <= i < |hosting| && hosting[i].name !in HostingProviders ==> r[i] == hosting[i]
    ensures NamesUnique(hosting) ==> NamesUnique(r)
  {
    var h2 := VercelNetlifyFromHeaders(hosting, h);
    var h3 := ConfirmWhen(h2, CloudflareHeaders(h), "Cloudflare");
    var r := ConfirmWhen(h3, CloudFrontHeaders(h), "AWS");
    ConfirmWhenKeepsConfirmed(h2, CloudflareHeaders(h), "Cloudflare", "Vercel");
    ConfirmWhenKeepsConfirmed(h3, CloudFrontHeaders(h), "AWS", "Vercel");
    ConfirmWhenKeepsConfirmed(h2, CloudflareHeaders(h), "Cloudflare", "Netlify");
    ConfirmWhenKeepsConfirmed(h3, CloudFrontHeaders(h), "AWS", "Netlify");
    ConfirmWhenKeepsConfirmed(h3, CloudFrontHeaders(h), "AWS", "Cloudflare");
    ConfirmsOnlyTrans(hosting, h2, h3, HostingProviders, {"Cloudflare"}, HostingProviders);
    ConfirmsOnlyTrans(hosting, h3, r, HostingProviders, {"AWS"}, HostingProviders);
    r
  }

  /** The framework half of the response hooks' backend update: Express.js, Fastify and
      NestJS, each added once, judged on the lower-cased header texts `xpb` and `srv`. */
  function FrameworksFromResponse(backend: seq<Finding>, xpb: string, srv: string): (r: seq<Finding>)
    ensures backend <= r
    ensures forall m :: HasName(r, m) <==>
      || HasName(backend, m)
      || (m == "Express.js" && ExpressSignal(xpb, srv))
      || (m == "Fastify" && FastifySignal(xpb, srv))
      || (m == "NestJS" && NestSignal(xpb, srv))
    ensures AddsOnly(backend, r, Named)
    ensures AddsFresh(backend, r)
    ensures NamesUnique(backend) ==> NamesUnique(r)
  {
    var b1 := if ExpressSignal(xpb, srv) then AddIfAbsent(backend, Named("Express.js")) else backend;
    var b2 := if FastifySignal(xpb, srv) then AddIfAbsent(b1, Named("Fastify")) else b1;
    AddWhenAddsOnly(backend, backend, ExpressSignal(xpb, srv), Named("Express.js"), Named);
    AddWhenAddsFresh(backend, backend, ExpressSignal(xpb, srv), Named("Express.js"));
    AddWhenAddsOnly(backend, b1, FastifySignal(xpb, srv), Named("Fastify"), Named);
    AddWhenAddsFresh(backend, b1, FastifySignal(xpb, srv), Named("Fastify"));
    AddWhenAddsOnly(backend, b2, NestSignal(xpb, srv), Named("NestJS"), Named);
    AddWhenAddsFresh(backend, b2, NestSignal(xpb, srv), Named("NestJS"));
    if NestSignal(xpb, srv) then AddIfAbsent(b2, Named("NestJS")) else b2
  }

  /** The backend update of the response hooks: Express.js, Fastify, NestJS and Node.js,
      each added once, judged on the lower-cased `x-powered-by` and `server` values. */
  function BackendFromResponse(backend: seq<Finding>, poweredBy: Option<string>, server: Option<string>): (r: seq<Finding>)
    ensures backend <= r
    ensures forall m :: HasName(r, m) <==>
      || HasName(backend, m)
      || (m == "Express.js" && ExpressSignal(HeaderText(poweredBy), HeaderText(server)))
      || (m == "Fastify" && FastifySignal(HeaderText(poweredBy), HeaderText(server)))
      || (m == "NestJS" && NestSignal(HeaderText(poweredBy), HeaderText(server)))
      || (m == NodeJs && NodeSignal(HeaderText(server)))
    ensures AddsOnly(backend, r, Named)
    ensures AddsFresh(backend, r)
    ensures NamesUnique(backend) ==> NamesUnique(r)
  {
    var srv := HeaderText(server);
    var b3 := FrameworksFromResponse(backend, HeaderText(poweredBy), srv);
    AddWhenAddsOnly(backend, b3, NodeSignal(srv), Named(NodeJs), Named);
    AddWhenAddsFresh(backend, b3, NodeSignal(srv), Named(NodeJs));
    if NodeSignal(srv) then AddIfAbsent(b3, Named(NodeJs)) else b3
  }

  /** The resource scan's Next.js API test for one resource URL: on a Next.js page, any URL
      containing `/api/`, or a same-origin URL with a `/trpc` or `/graphql` segment. */
  predicate ResourceIsNextApi(name: string, sameOrigin: bool, isNextJs: bool)
  {
    isNextJs && (Contains(name, "/api/") || (sameOrigin && IsRpcResourceUrl(name)))
  }

  /** The backend findings the resource scan adds for one loaded resource: PHP, ASP.NET
      (a `.aspx` page or a `__VIEWSTATE` marker) and `Next.js API`, each at most once. */
  function BackendFromResource(backend: seq<Finding>, name: string, sameOrigin: bool, isNextJs: bool): (r: seq<Finding>)
    ensures backend <= r
    ensures forall m :: HasName(r, m) <==>
      || HasName(backend, m)
      || (m == Php && IsPhpUrl(name))
      || (m == "ASP.NET" && (IsAspxUrl(name) || Contains(name, "__VIEWSTATE")))
      || (m == NextApi && ResourceIsNextApi(name, sameOrigin, isNextJs))
    ensures AddsOnly(backend, r, Named)
    ensures AddsFresh(backend, r)
    ensures NamesUnique(backend) ==> NamesUnique(r)
  {
    var b1 := if IsPhpUrl(name) then AddIfAbsent(backend, Named(Php)) else backend;
    var b2 := if IsAspxUrl(name) || Contains(name, "__VIEWSTATE") then AddIfAbsent(b1, Named("ASP.NET")) else b1;
    var b3 := if isNextJs && sameOrigin && (Contains(name, "/api/") || IsRpcResourceUrl(name))
              then AddIfAbsent(b2, Named(NextApi)) else b2;
    AddWhenAddsOnly(backend, backend, IsPhpUrl(name), Named(Php), Named);
    AddWhenAddsFresh(backend, backend, IsPhpUrl(name), Named(Php));
    AddWhenAddsOnly(backend, b1, IsAspxUrl(name) || Contains(name, "__VIEWSTATE"), Named("ASP.NET"), Named);
    AddWhenAddsFresh(backend, b1, IsAspxUrl(name) || Contains(name, "__VIEWSTATE"), Named("ASP.NET"));
    AddWhenAddsOnly(backend, b2, isNextJs && sameOrigin && (Contains(name, "/api/") || IsRpcResourceUrl(name)),
                    Named(NextApi), Named);
    AddWhenAddsFresh(backend, b2, isNextJs && sameOrigin && (Contains(name, "/api/") || IsRpcResourceUrl(name)), Named(NextApi));
    AddWhenAddsOnly(backend, b3, isNextJs && Contains(name, "/api/"), Named(NextApi), Named);
    AddWhenAddsFresh(backend, b3, isNextJs && Contains(name, "/api/"), Named(NextApi));
    if isNextJs && Contains(name, "/api/") then AddIfAbsent(b3, Named(NextApi)) else b3
  }

  /** The entry the resource scan pushes for a database name: Supabase is inferred from
      its REST paths, everything else is a plain finding. */
  function ResourceDatabaseEntry(n: string): Finding
  {
    if n == Supabase then InferredFinding(Supabase) else Named(n)
  }

  /** The database findings the resource scan adds for one loaded resource: an inferred
      Supabase for its REST paths and Firebase for its hosts, each at most once. */
  function DatabasesFromResource(dbs: seq<Finding>, name: string): (r: seq<Finding>)
    ensures dbs <= r
    ensures forall m :: HasName(r, m) <==>
      || HasName(dbs, m)
      || (m == Supabase && IsSupabaseRestUrl(name))
      || (m == Firebase && IsFirebaseUrl(name))
    ensures AddsOnly(dbs, r, ResourceDatabaseEntry)
    ensures AddsFresh(dbs, r)
    ensures NamesUnique(dbs) ==> NamesUnique(r)
  {
    var d1 := if IsSupabaseRestUrl(name) then AddIfAbsent(dbs, InferredFinding(Supabase)) else dbs;
    AddWhenAddsOnly(dbs, dbs, IsSupabaseRestUrl(name), InferredFinding(Supabase), ResourceDatabaseEntry);
    AddWhenAddsFresh(dbs, dbs, IsSupabaseRestUrl(name), InferredFinding(Supabase));
    AddWhenAddsOnly(dbs, d1, IsFirebaseUrl(name), Named(Firebase), ResourceDatabaseEntry);
    AddWhenAddsFresh(dbs, d1, IsFirebaseUrl(name), Named(Firebase));
    if IsFirebaseUrl(name) then AddIfAbsent(d1, Named(Firebase)) else d1
  }

  /** A resource URL seen by the resource scan; `sameOrigin` is the scan's origin test. */
  datatype Resource = Resource(name: string, sameOrigin: bool)

  /** One resource passes the scan's test for the backend name `m`. */
  predicate AddsBackend(e: Resource, isNextJs: bool, m: string)
  {
    || (m == Php && IsPhpUrl(e.name))
    || (m == "ASP.NET" && (IsAspxUrl(e.name) || Contains(e.name, "__VIEWSTATE")))
    || (m == NextApi && ResourceIsNextApi(e.name, e.sameOrigin, isNextJs))
  }

  /** One resource passes the scan's test for the database name `m`. */
  predicate AddsDatabase(e: Resource, m: string)
  {
    || (m == Supabase && IsSupabaseRestUrl(e.name))
    || (m == Firebase && IsFirebaseUrl(e.name))
  }

  /** The resource scan's step for one resource. */
  function ScanOne(report: Report, e: Resource, isNextJs: bool): Report
  {
    report.(backend := BackendFromResource(report.backend, e.name, e.sameOrigin, isNextJs),
            databases := DatabasesFromResource(report.databases, e.name))
  }

  /** The resource scan over every loaded resource, in order. */
  function ScanResources(report: Report, resources: seq<Resource>, isNextJs: bool): (r: Report)
    ensures forall c :: c != Backend && c != Databases ==> r.Get(c) == report.Get(c)
    ensures report.backend <= r.backend && report.databases <= r.databases
    decreases |resources|
  {
    if |resources| == 0 then report
    else
      var e := resources[0];
      var next := ScanOne(report, e, isNextJs);
      ScanResources(next, resources[1..], isNextJs)
  }

  /** A resource that passes the test for `m` leaves `m` in the backend. */
  lemma BackendFromResourceAdds(backend: seq<Finding>, e: Resource, isNextJs: bool, m: string)
    requires AddsBackend(e, isNextJs, m)
    ensures HasName(BackendFromResource(backend, e.name, e.sameOrigin, isNextJs), m)
  {
  }

  /** Every add of the scan is guarded, so duplicate-free lists stay duplicate-free. */
  lemma {:induction false} ScanResourcesKeepsUnique(report: Report, resources: seq<Resource>, isNextJs: bool)
    requires NamesUnique(report.backend) && NamesUnique(report.databases)
    ensures var r := ScanResources(report, resources, isNextJs);
            NamesUnique(r.backend) && NamesUnique(r.databases)
    decreases |resources|
  {
    if |resources| > 0 {
      ScanResourcesKeepsUnique(ScanOne(report, resources[0], isNextJs), resources[1..], isNextJs);
    }
  }

  /** The scan appends to the backend and database lists only entries whose names were
      absent, each plain in the backend list and shaped as `ResourceDatabaseEntry` in the
      database list. */
  lemma {:induction false} ScanResourcesAddsFresh(report: Report, resources: seq<Resource>, isNextJs: bool)
    ensures var r := ScanResources(report, resources, isNextJs);
            && AddsFresh(report.backend, r.backend) && AddsOnly(report.backend, r.backend, Named)
            && AddsFresh(report.databases, r.databases) && AddsOnly(report.databases, r.databases, ResourceDatabaseEntry)
    decreases |resources|
  {
    var r := ScanResources(report, resources, isNextJs);
    if |resources| > 0 {
      var next := ScanOne(report, resources[0], isNextJs);
      assert r == ScanResources(next, resources[1..], isNextJs);
      ScanResourcesAddsFresh(next, resources[1..], isNextJs);
      AddsFreshTrans(report.backend, next.backend, r.backend);
      AddsOnlyTrans(report.backend, next.backend, r.backend, Named);
      AddsFreshTrans(report.databases, next.databases, r.databases);
      AddsOnlyTrans(report.databases, next.databases, r.databases, ResourceDatabaseEntry);
    }
  }

  /** After the scan, every backend finding of a resource is present, whichever position
      it had in the list. */
  lemma {:induction false} ScanResourcesFindsBackend(report: Report, resources: seq<Resource>, isNextJs: bool, k: nat, m: string)
    requires k < |resources| && AddsBackend(resources[k], isNextJs, m)
    ensures HasName(ScanResources(report, resources, isNextJs).backend, m)
    decreases |resources|
  {
    var e := resources[0];
    var next := ScanOne(report, e, isNextJs);
    var r := ScanResources(report, resources, isNextJs);
    assert r == ScanResources(next, resources[1..], isNextJs);
    if k == 0 {
      BackendFromResourceAdds(report.backend, e, isNextJs, m);
      var i :| 0 <= i < |next.backend| && next.backend[i].name == m;
      assert r.backend[i] == next.backend[i];
    } else {
      assert resources[1..][k - 1] == resources[k];
      ScanResourcesFindsBackend(next, resources[1..], isNextJs, k - 1, m);
    }
  }

  /** After the scan, every database finding of a resource is present, whichever position
      it had in the list. */
  lemma {:induction false} ScanResourcesFindsDatabase(report: Report, resources: seq<Resource>, isNextJs: bool, k: nat, m: string)
    requires k < |resources| && AddsDatabase(resources[k], m)
    ensures HasName(ScanResources(report, resources, isNextJs).databases, m)
    decreases |resources|
  {
    var e := resources[0];
    var next := ScanOne(report, e, isNextJs);
    var r := ScanResources(report, resources, isNextJs);
    assert r == ScanResources(next, resources[1..], isNextJs);
    if k == 0 {
      var i :| 0 <= i < |next.databases| && next.databases[i].name == m;
      assert r.databases[i] == next.databases[i];
    } else {
      assert resources[1..][k - 1] == resources[k];
      ScanResourcesFindsDatabase(next, resources[1..], isNextJs, k - 1, m);
    }
  }

  /** A backend name is present after the scan only when it was present before or some
      resource passes its test. */
  lemma {:induction false} ScanResourcesBackendSources(report: Report, resources: seq<Resource>, isNextJs: bool, m: string)
    requires HasName(ScanResources(report, resources, isNextJs).backend, m)
    ensures HasName(report.backend, m) || exists k :: 0 <= k < |resources| && AddsBackend(resources[k], isNextJs, m)
    decreases |resources|
  {
    if |resources| > 0 && !HasName(report.backend, m) {
      var e := resources[0];
      var next := ScanOne(report, e, isNextJs);
      assert ScanResources(report, resources, isNextJs) == ScanResources(next, resources[1..], isNextJs);
      ScanResourcesBackendSources(next, resources[1..], isNextJs, m);
      if HasName(next.backend, m) {
        assert AddsBackend(resources[0], isNextJs, m);
      } else {
        var k :| 0 <= k < |resources[1..]| && AddsBackend(resources[1..][k], isNextJs, m);
        assert resources[k + 1] == resources[1..][k];
      }
    }
  }

  /** A database name is present after the scan only when it was present before or some
      resource passes its test. */
  lemma {:induction false} ScanResourcesDatabaseSources(report: Report, resources: seq<Resource>, isNextJs: bool, m: string)
    requires HasName(ScanResources(report, resources, isNextJs).databases, m)
    ensures HasName(report.databases, m) || exists k :: 0 <= k < |resources| && AddsDatabase(resources[k], m)
    decreases |resources|
  {
    if |resources| > 0 && !HasName(report.databases, m) {
      var e := resources[0];
      var next := ScanOne(report, e, isNextJs);
      assert ScanResources(report, resources, isNextJs) == ScanResources(next, resources[1..], isNextJs);
      ScanResourcesDatabaseSources(next, resources[1..], isNextJs, m);
      if HasName(next.databases, m) {
        assert AddsDatabase(resources[0], m);
      } else {
        var k :| 0 <= k < |resources[1..]| && AddsDatabase(resources[1..][k], m);
        assert resources[k + 1] == resources[1..][k];
      }
    }
  }

  /** The backend findings the `fetch` hook adds for a request URL: `Next.js API` for a
      same-origin API path (skipped when the URL does not parse), then PHP and ASP.NET pages. */
  function BackendFromRequestUrl(backend: seq<Finding>, url: string, parsed: Option<ParsedUrl>): (r: seq<Finding>)
    ensures backend <= r
    ensures forall m :: HasName(r, m) <==>
      || HasName(backend, m)
      || (m == NextApi && parsed.Some? && IsSameOriginApi(parsed.value))
      || (m == Php && IsPhpUrl(url))
      || (m == "ASP.NET" && IsAspxUrl(url))
    ensures AddsOnly(backend, r, Named)
    ensures AddsFresh(backend, r)
    ensures NamesUnique(backend) ==> NamesUnique(r)
  {
    var b1 := if parsed.Some? && IsSameOriginApi(parsed.value) then AddIfAbsent(backend, Named(NextApi)) else backend;
    var b2 := if IsPhpUrl(url) then AddIfAbsent(b1, Named(Php)) else b1;
    AddWhenAddsOnly(backend, backend, parsed.Some? && IsSameOriginApi(parsed.value), Named(NextApi), Named);
    AddWhenAddsFresh(backend, backend, parsed.Some? && IsSameOriginApi(parsed.value), Named(NextApi));
    AddWhenAddsOnly(backend, b1, IsPhpUrl(url), Named(Php), Named);
    AddWhenAddsFresh(backend, b1, IsPhpUrl(url), Named(Php));
    AddWhenAddsOnly(backend, b2, IsAspxUrl(url), Named("ASP.NET"), Named);
    AddWhenAddsFresh(backend, b2, IsAspxUrl(url), Named("ASP.NET"));
    if IsAspxUrl(url) then AddIfAbsent(b2, Named("ASP.NET")) else b2
  }

  /** The entry the `fetch` hook pushes for a database name: PostgreSQL is always inferred,
      Supabase is inferred unless the URL has a Supabase host, everything else is plain. */
  function RequestDatabaseEntry(url: string, n: string): Finding
  {
    if n == PostgreSql then InferredFinding(PostgreSql)
    else if n == Supabase && !IsSupabaseHost(url) then InferredFinding(Supabase)
    else Named(n)
  }

  /** The database findings the `fetch` hook adds for a request URL: the Supabase host pair,
      then an inferred Supabase for its REST paths, then Firebase for its hosts. */
  function DatabasesFromRequestUrl(dbs: seq<Finding>, url: string): (r: seq<Finding>)
    ensures dbs <= r
    ensures IsSupabaseHost(url) || IsSupabaseRestUrl(url) ==> HasName(r, Supabase)
    ensures IsSupabaseHost(url) && !HasName(dbs, Supabase) ==> HasName(r, PostgreSql)
    ensures IsFirebaseUrl(url) ==> HasName(r, Firebase)
    ensures forall m :: HasName(r, m) <==>
      || HasName(dbs, m)
      || (m == Supabase && (IsSupabaseHost(url) || IsSupabaseRestUrl(url)))
      || (m == PostgreSql && IsSupabaseHost(url) && !HasName(dbs, Supabase))
      || (m == Firebase && IsFirebaseUrl(url))
    ensures !HasName(dbs, Supabase) && IsSupabaseHost(url)
            ==> |r| > |dbs| + 1 && r[|dbs|] == Named(Supabase) && r[|dbs| + 1] == InferredFinding(PostgreSql)
    ensures !HasName(dbs, Supabase) && !IsSupabaseHost(url) && IsSupabaseRestUrl(url)
            ==> |r| > |dbs| && r[|dbs|] == InferredFinding(Supabase)
    ensures AddsOnly(dbs, r, n => RequestDatabaseEntry(url, n))
    ensures AddsFreshExcept(dbs, r, |dbs| + 1, InferredFinding(PostgreSql))
  {
    var d2 := SupabaseFromRequestUrl(dbs, url);
    AddWhenAddsOnly(dbs, d2, IsFirebaseUrl(url), Named(Firebase), n => RequestDatabaseEntry(url, n));
    AddWhenAddsFreshExcept(dbs, d2, IsFirebaseUrl(url), Named(Firebase), |dbs| + 1, InferredFinding(PostgreSql));
    if IsFirebaseUrl(url) then AddIfAbsent(d2, Named(Firebase)) else d2
  }

  /** The two Supabase rules of the `fetch` hook: the host pair, then the inferred Supabase
      for REST paths. */
  function SupabaseFromRequestUrl(dbs: seq<Finding>, url: string): (r: seq<Finding>)
    ensures dbs <= r
    ensures forall m :: HasName(r, m) <==>
      || HasName(dbs, m)
      || (m == Supabase && (IsSupabaseHost(url) || IsSupabaseRestUrl(url)))
      || (m == PostgreSql && IsSupabaseHost(url) && !HasName(dbs, Supabase))
    ensures !HasName(dbs, Supabase) && IsSupabaseHost(url)
            ==> |r| > |dbs| + 1 && r[|dbs|] == Named(Supabase) && r[|dbs| + 1] == InferredFinding(PostgreSql)
    ensures !HasName(dbs, Supabase) && !IsSupabaseHost(url) && IsSupabaseRestUrl(url)
            ==> |r| > |dbs| && r[|dbs|] == InferredFinding(Supabase)
    ensures AddsOnly(dbs, r, n => RequestDatabaseEntry(url, n))
    ensures AddsFreshExcept(dbs, r, |dbs| + 1, InferredFinding(PostgreSql))
  {
    var d1 := if IsSupabaseHost(url) then AddSupabasePair(dbs) else dbs;
    var shape := n => RequestDatabaseEntry(url, n);
    assert AddsOnly(dbs, d1, shape) by {
      if IsSupabaseHost(url) && !HasName(dbs, Supabase) {
        assert d1 == dbs + [Named(Supabase), InferredFinding(PostgreSql)];
        assert d1[|dbs|] == shape(Supabase) && d1[|dbs| + 1] == shape(PostgreSql);
      }
    }
    AddWhenAddsOnly(dbs, d1, IsSupabaseRestUrl(url) && !IsSupabaseHost(url), InferredFinding(Supabase), shape);
    assert AddsFreshExcept(dbs, d1, |dbs| + 1, InferredFinding(PostgreSql)) by {
      if IsSupabaseHost(url) && !HasName(dbs, Supabase) {
        assert d1[..|dbs|] == dbs;
      }
    }
    AddWhenAddsFreshExcept(dbs, d1, IsSupabaseRestUrl(url), InferredFinding(Supabase), |dbs| + 1, InferredFinding(PostgreSql));
    var r := if IsSupabaseRestUrl(url) then AddIfAbsent(d1, InferredFinding(Supabase)) else d1;
    assert IsSupabaseHost(url) ==> r == d1 by {
      if IsSupabaseHost(url) {
        assert HasName(d1, Supabase);
      }
    }
    r
  }

  /** The findings the `fetch` hook adds for a request URL; only the backend and database
      categories change. */
  function ObserveRequestUrl(report: Report, url: string, parsed: Option<ParsedUrl>): (r: Report)
    ensures forall c :: c != Backend && c != Databases ==> r.Get(c) == report.Get(c)
    ensures r.backend == BackendFromRequestUrl(report.backend, url, parsed)
    ensures r.databases == DatabasesFromRequestUrl(report.databases, url)
  {
    report.(backend := BackendFromRequestUrl(report.backend, url, parsed),
            databases := DatabasesFromRequestUrl(report.databases, url))
  }

  /** Observing the same request URL twice gives the same report as observing it once. */
  lemma ObserveRequestUrlIdempotent(report: Report, url: string, parsed: Option<ParsedUrl>)
    ensures ObserveRequestUrl(ObserveRequestUrl(report, url, parsed), url, parsed)
         == ObserveRequestUrl(report, url, parsed)
  {
  }

  /** What the Firebase test and the Supabase inference leave behind: the database list and
      whether the rest of the network pass (resource scan, API check, chunk scan and the
      installation of the request hooks) still runs. */
  datatype StepOutcome = StepOutcome(databases: seq<Finding>, completed: bool)

  /** The Firebase test and Supabase inference as written. The test reads the page markup
      `currentPageContent` before that constant is declared further down in the same block,
      so unless its first disjunct (a Firebase init call in inline scripts) short-circuits,
      the read throws, the surrounding catch swallows it, and neither the inference nor
      anything after it runs; the page markup is never consulted. */
  function FirebaseStepAsWritten(dbs: seq<Finding>, inlineFirebaseInit: bool, pageMentionsFirebase: bool): (o: StepOutcome)
    ensures o.completed <==> inlineFirebaseInit
    ensures !o.completed ==> o.databases == dbs
    ensures o.completed ==> HasName(o.databases, Firebase)
    ensures o.completed ==> (HasName(o.databases, Supabase) ==> HasName(o.databases, PostgreSql))
  {
    if inlineFirebaseInit then
      StepOutcome(InferPostgres(AddIfAbsent(dbs, Named(Firebase))), true)
    else
      StepOutcome(dbs, false)
  }

  /** As written, a Supabase entry found earlier in the pass is left without PostgreSQL, even
      when the page markup names a Firebase host. */
  lemma FirebaseStepSkipsInference()
    ensures var o := FirebaseStepAsWritten([Named(Supabase)], false, true);
            !o.completed && HasName(o.databases, Supabase) && !HasName(o.databases, PostgreSql)
  {
    var o := FirebaseStepAsWritten([Named(Supabase)], false, true);
    assert o.databases[0].name == Supabase;
    assert Supabase != PostgreSql by {
      assert Supabase[0] != PostgreSql[0];
    }
  }

  /** The same step with the page markup read after it is available: the Firebase test
      consults both sources, the inference always runs and the pass continues. */
  function FirebaseStep(dbs: seq<Finding>, inlineFirebaseInit: bool, pageMentionsFirebase: bool): (o: StepOutcome)
    ensures o.completed
    ensures HasName(o.databases, Supabase) ==> HasName(o.databases, PostgreSql)
    ensures HasName(o.databases, Firebase) <==> HasName(dbs, Firebase) || inlineFirebaseInit || pageMentionsFirebase
    ensures dbs <= o.databases
    ensures NamesUnique(dbs) ==> NamesUnique(o.databases)
  {
    var withFirebase := if inlineFirebaseInit || pageMentionsFirebase then AddIfAbsent(dbs, Named(Firebase)) else dbs;
    assert Firebase != PostgreSql by {
      assert Firebase[0] != PostgreSql[0];
    }
    StepOutcome(InferPostgres(withFirebase), true)
  }
}

=== FILE: findings.dfy ===
/** The report every detection pass produces: eight fixed categories, each an ordered list
    of findings `{name, version?, inferred?, via?}`, and the list operations shared by the
    background merge and the content-script rules. */
module Findings {

  import opened Options

  /** One detected technology. `inferred` is the JavaScript flag, with an absent flag read
      as false; `via` records a secondary confirmation channel such as "headers". */
  datatype Finding = Finding(name: string, version: Option<string>, inferred: bool, via: Option<string>)

  /** `{ name }`: a direct match without version. */
  function Named(name: string): Finding
  {
    Finding(name, None, false, None)
  }

  /** `{ name, inferred: true }`: a finding derived from another one. */
  function InferredFinding(name: string): Finding
  {
    Finding(name, None, true, None)
  }

  /** `list.find(e => e.name === n)` is truthy. */
  predicate HasName(list: seq<Finding>, n: string)
  {
    exists i :: 0 <= i < |list| && list[i].name == n
  }

  /** No two entries of the list share a name. */
  predicate NamesUnique(list: seq<Finding>)
  {
    forall i, j :: 0 <= i < j < |list| ==> list[i].name != list[j].name
  }

  lemma HasNameAppend(a: seq<Finding>, b: seq<Finding>, n: string)
    ensures HasName(a + b, n) <==> HasName(a, n) || HasName(b, n)
  {
    if HasName(a + b, n) {
      var i :| 0 <= i < |a + b| && (a + b)[i].name == n;
      if i >= |a| {
        assert b[i - |a|].name == n;
      }
    }
    if HasName(a, n) {
      var i :| 0 <= i < |a| && a[i].name == n;
      assert (a + b)[i].name == n;
    }
    if HasName(b, n) {
      var i :| 0 <= i < |b| && b[i].name == n;
      assert (a + b)[|a| + i].name == n;
    }
  }

  /** The guarded add used throughout the extension
      (`if (!list.find(e => e.name === item.name)) list.push(item)`):
      the item is appended only when no entry has its name. */
  function AddIfAbsent(list: seq<Finding>, item: Finding): (r: seq<Finding>)
    ensures list <= r && |r| <= |list| + 1
    ensures HasName(r, item.name)
    ensures HasName(list, item.name) ==> r == list
    ensures !HasName(list, item.name) ==> r[|list|..] == [item]
    ensures forall n :: HasName(r, n) <==> HasName(list, n) || n == item.name
    ensures NamesUnique(list) ==> NamesUnique(r)
  {
    if HasName(list, item.name) then list
    else
      var r := list + [item];
      assert r[|list|].name == item.name;
      assert forall n :: HasName(r, n) <==> HasName(list, n) || n == item.name by {
        forall n ensures HasName(r, n) <==> HasName(list, n) || n == item.name {
          HasNameAppend(list, [item], n);
        }
      }
      r
  }

  /** Every entry `r` holds beyond the prefix `base` is the entry `shape` builds for its name:
      a rule that only pushes entries of that form. */
  predicate AddsOnly(base: seq<Finding>, r: seq<Finding>, shape: string -> Finding)
  {
    forall i :: |base| <= i < |r| ==> r[i] == shape(r[i].name)
  }

  /** A guarded add, when it runs, of an entry of the given form keeps every entry beyond
      `base` of that form. */
  lemma AddWhenAddsOnly(base: seq<Finding>, list: seq<Finding>, cond: bool, item: Finding, shape: string -> Finding)
    requires |base| <= |list| && AddsOnly(base, list, shape) && (cond ==> item == shape(item.name))
    ensures AddsOnly(base, if cond then AddIfAbsent(list, item) else list, shape)
  {
    if cond && !HasName(list, item.name) {
      assert AddIfAbsent(list, item) == list + [item];
    }
  }

  /** Every entry `r` holds beyond the prefix `base` was appended only when no entry before
      it had its name: a rule whose every push is guarded by `find`. */
  predicate AddsFresh(base: seq<Finding>, r: seq<Finding>)
  {
    forall i :: |base| <= i < |r| ==> !HasName(r[..i], r[i].name)
  }

  /** `AddsFresh`, except that the entry at position `skip` may be the unguarded push `e`. */
  predicate AddsFreshExcept(base: seq<Finding>, r: seq<Finding>, skip: int, e: Finding)
  {
    forall i :: |base| <= i < |r| ==> !HasName(r[..i], r[i].name) || (i == skip && r[i] == e)
  }

  /** The guarded add, when it runs, appends only a fresh name. */
  lemma AddWhenAddsFresh(base: seq<Finding>, list: seq<Finding>, cond: bool, item: Finding)
    requires |base| <= |list| && AddsFresh(base, list)
    ensures AddsFresh(base, if cond then AddIfAbsent(list, item) else list)
  {
    if cond && !HasName(list, item.name) {
      var r := list + [item];
      assert AddIfAbsent(list, item) == r;
      assert r[..|list|] == list;
      forall i | |base| <= i < |list| ensures r[..i] == list[..i] && r[i] == list[i] {
      }
    }
  }

  /** The guarded add, when it runs, keeps `AddsFreshExcept`. */
  lemma AddWhenAddsFreshExcept(base: seq<Finding>, list: seq<Finding>, cond: bool, item: Finding, skip: int, e: Finding)
    requires |base| <= |list| && AddsFreshExcept(base, list, skip, e)
    ensures AddsFreshExcept(base, if cond then AddIfAbsent(list, item) else list, skip, e)
  {
    if cond && !HasName(list, item.name) {
      var r := list + [item];
      assert AddIfAbsent(list, item) == r;
      assert r[..|list|] == list;
      forall i | |base| <= i < |list| ensures r[..i] == list[..i] && r[i] == list[i] {
      }
    }
  }

  /** Fresh appends compose along a chain of prefixes. */
  lemma AddsFreshTrans(a: seq<Finding>, b: seq<Finding>, c: seq<Finding>)
    requires a <= b <= c && AddsFresh(a, b) && AddsFresh(b, c)
    ensures AddsFresh(a, c)
  {
    forall i | |a| <= i < |b| ensures !HasName(c[..i], c[i].name) {
      assert c[..i] == b[..i] && c[i] == b[i];
    }
  }

  /** Entry shapes compose along a chain of prefixes. */
  lemma AddsOnlyTrans(a: seq<Finding>, b: seq<Finding>, c: seq<Finding>, shape: string -> Finding)
    requires a <= b <= c && AddsOnly(a, b, shape) && AddsOnly(b, c, shape)
    ensures AddsOnly(a, c, shape)
  {
    forall i | |a| <= i < |b| ensures c[i] == shape(c[i].name) {
      assert c[i] == b[i];
    }
  }

  /** `list.filter(e => e.name !== n)`. */
  function RemoveName(list: seq<Finding>, n: string): (r: seq<Finding>)
    ensures forall f :: f in r <==> f in list && f.name != n
    ensures !HasName(r, n)
    ensures !HasName(list, n) ==> r == list
    ensures |r| <= |list|
    ensures forall m :: m != n ==> (HasName(r, m) <==> HasName(list, m))
    ensures NamesUnique(list) ==> NamesUnique(r)
  {
    if |list| == 0 then []
    else
      var rest := RemoveName(list[1..], n);
      assert list == [list[0]] + list[1..];
      assert forall m :: HasName(list, m) <==> list[0].name == m || HasName(list[1..], m) by {
        forall m ensures HasName(list, m) <==> list[0].name == m || HasName(list[1..], m) {
          HasNameAppend([list[0]], list[1..], m);
        }
      }
      if list[0].name == n then rest
      else
        var r := [list[0]] + rest;
        assert forall m :: HasName(r, m) <==> list[0].name == m || HasName(rest, m) by {
          forall m ensures HasName(r, m) <==> list[0].name == m || HasName(rest, m) {
            HasNameAppend([list[0]], rest, m);
          }
        }
        assert NamesUnique(list) ==> NamesUnique(r) by {
          if NamesUnique(list) {
            assert !HasName(list[1..], list[0].name);
            forall i, j | 0 <= i < j < |r| ensures r[i].name != r[j].name {
              if i == 0 {
                assert r[j] in rest;
              }
            }
          }
        }
        r
  }

  /** Filtering distributes over concatenation, so the entries that survive keep their
      relative order. */
  lemma {:induction false} RemoveNameAppend(a: seq<Finding>, b: seq<Finding>, n: string)
    ensures RemoveName(a + b, n) == RemoveName(a, n) + RemoveName(b, n)
    decreases |a|
  {
    if |a| == 0 {
      assert a + b == b;
    } else {
      assert (a + b)[1..] == a[1..] + b;
      RemoveNameAppend(a[1..], b, n);
    }
  }

  /** The eight fixed categories of a report, in the order the extension lists them. */
  datatype Category = Frameworks | CssFrameworks | Analytics | Cms | Libraries | Backend | Databases | Hosting

  const AllCategories: seq<Category> :=
    [Frameworks, CssFrameworks, Analytics, Cms, Libraries, Backend, Databases, Hosting]

  /** The JSON property name under which a category travels in a message payload. */
  function Key(c: Category): string
  {
    match c
    case Frameworks => "frameworks"
    case CssFrameworks => "cssFrameworks"
    case Analytics => "analytics"
    case Cms => "cms"
    case Libraries => "libraries"
    case Backend => "backend"
    case Databases => "databases"
    case Hosting => "hosting"
  }

  /** A category key read back from a JSON property name, if it is one of the eight. */
  function CategoryOfKey(k: string): (c: Option<Category>)
    ensures c.Some? ==> Key(c.value) == k
    ensures c.None? ==> forall d :: Key(d) != k
  {
    if k == "frameworks" then Some(Frameworks)
    else if k == "cssFrameworks" then Some(CssFrameworks)
    else if k == "analytics" then Some(Analytics)
    else if k == "cms" then Some(Cms)
    else if k == "libraries" then Some(Libraries)
    else if k == "backend" then Some(Backend)
    else if k == "databases" then Some(Databases)
    else if k == "hosting" then Some(Hosting)
    else None
  }

  /** A `techDetected` payload: the properties of the message's `data` object, by name. */
  type Payload = map<string, seq<Finding>>

  /** The position of a category in the fixed order. */
  function CategoryIndex(c: Category): (i: nat)
    ensures i < |AllCategories| && AllCategories[i] == c
  {
    match c
    case Frameworks => 0
    case CssFrameworks => 1
    case Analytics => 2
    case Cms => 3
    case Libraries => 4
    case Backend => 5
    case Databases => 6
    case Hosting => 7
  }

  /** The fixed category list names every category exactly once. */
  lemma CategoriesEnumerated()
    ensures forall c :: c in AllCategories
    ensures forall i, j :: 0 <= i < j < |AllCategories| ==> AllCategories[i] != AllCategories[j]
  {
    forall c ensures c in AllCategories {
      match c
      case Frameworks => assert AllCategories[0] == c;
      case CssFrameworks => assert AllCategories[1] == c;
      case Analytics => assert AllCategories[2] == c;
      case Cms => assert AllCategories[3] == c;
      case Libraries => assert AllCategories[4] == c;
      case Backend => assert AllCategories[5] == c;
      case Databases => assert AllCategories[6] == c;
      case Hosting => assert AllCategories[7] == c;
    }
  }

  /** A detection report: one ordered finding list per category. */
  datatype Report = Report(
    frameworks: seq<Finding>,
    cssFrameworks: seq<Finding>,
    analytics: seq<Finding>,
    cms: seq<Finding>,
    libraries: seq<Finding>,
    backend: seq<Finding>,
    databases: seq<Finding>,
    hosting: seq<Finding>)
  {
    function Get(c: Category): seq<Finding>
    {
      match c
      case Frameworks => frameworks
      case CssFrameworks => cssFrameworks
      case Analytics => analytics
      case Cms => cms
      case Libraries => libraries
      case Backend => backend
      case Databases => databases
      case Hosting => hosting
    }

    /** The report with category `c` replaced by `list`. */
    function With(c: Category, list: seq<Finding>): (r: Report)
      ensures r.Get(c) == list
      ensures forall d :: d != c ==> r.Get(d) == Get(d)
    {
      match c
      case Frameworks => this.(frameworks := list)
      case CssFrameworks => this.(cssFrameworks := list)
      case Analytics => this.(analytics := list)
      case Cms => this.(cms := list)
      case Libraries => this.(libraries := list)
      case Backend => this.(backend := list)
      case Databases => this.(databases := list)
      case Hosting => this.(hosting := list)
    }
  }

  /** `{ frameworks: [], cssFrameworks: [], …, hosting: [] }`. */
  const EmptyReport: Report := Report([], [], [], [], [], [], [], [])

  /** Two reports that agree on every category are the same report. */
  lemma ReportExtensional(a: Report, b: Report)
    requires forall c :: a.Get(c) == b.Get(c)
    ensures a == b
  {
    assert a.Get(Frameworks) == b.Get(Frameworks);
    assert a.Get(CssFrameworks) == b.Get(CssFrameworks);
    assert a.Get(Analytics) == b.Get(Analytics);
    assert a.Get(Cms) == b.Get(Cms);
    assert a.Get(Libraries) == b.Get(Libraries);
    assert a.Get(Backend) == b.Get(Backend);
    assert a.Get(Databases) == b.Get(Databases);
    assert a.Get(Hosting) == b.Get(Hosting);
  }

  /** Every category of the report is free of duplicate names. */
  predicate ReportUnique(r: Report)
  {
    forall c :: NamesUnique(r.Get(c))
  }
}

=== FILE: popup.dfy ===
/** The popup's rendering of a report: one section per category in a fixed order, one badge
    per finding, and a placeholder for an empty category. Only the rendered text is modelled,
    not the DOM nodes. */
module Popup {

  import opened Options
  import opened Findings
  import opened Translations

  /** `tech.version && tech.version !== 'Unknown'`: a version is shown when it is present,
      non-empty and not the literal `Unknown`. */
  predicate ShowsVersion(v: Option<string>)
  {
    v.Some? && v.value != "" && v.value != "Unknown"
  }

  /** The badge text of one finding: its name, then ` <version>` when the version is shown,
      then ` *` when the finding is inferred. */
  function BadgeLabel(f: Finding): (text: string)
    ensures |text| == |f.name| + (if ShowsVersion(f.version) then 1 + |f.version.value| else 0)
                                + (if f.inferred then 2 else 0)
    ensures text[..|f.name|] == f.name
    ensures ShowsVersion(f.version) ==> text[|f.name|..|f.name| + 1 + |f.version.value|] == " " + f.version.value
    ensures f.inferred ==> text[|text| - 2..] == " *"
    ensures !ShowsVersion(f.version) && !f.inferred ==> text == f.name
  {
    var withVersion := if ShowsVersion(f.version) then f.name + " " + f.version.value else f.name;
    var text := if f.inferred then withVersion + " *" else withVersion;
    assert text[..|f.name|] == withVersion[..|f.name|];
    text
  }

  /** The provenance of a finding never shows in its badge. */
  lemma BadgeIgnoresVia(f: Finding, via: Option<string>)
    ensures BadgeLabel(f.(via := via)) == BadgeLabel(f)
  {
  }

  /** A finding whose version is `Unknown` is labelled as if it had none. */
  lemma UnknownVersionHidden(f: Finding)
    requires f.version == Some("Unknown")
    ensures BadgeLabel(f) == BadgeLabel(f.(version := None))
  {
  }

  /** The two translated strings a category is rendered with: the placeholder of an empty
      category and the tooltip of an inferred badge. */
  datatype Labels = Labels(noTech: Value, inferred: Value)

  /** `t('noTechDetected')` and `t('inferred')` in the browser's language. */
  function LabelsFor(browserLang: string): Labels
  {
    Labels(T(browserLang, "noTechDetected"), T(browserLang, "inferred"))
  }

  /** One rendered line of a category: the placeholder, or a badge with its text and, for an
      inferred finding, its tooltip. */
  datatype Row = NoTech(message: Value) | Badge(text: string, title: Option<Value>)

  /** The badge of one finding; the tooltip is `t('inferred')` for an inferred finding. */
  function BadgeRow(labels: Labels, f: Finding): Row
  {
    Badge(BadgeLabel(f), if f.inferred then Some(labels.inferred) else None)
  }

  /** `techs.forEach(...)`: one badge per finding, in list order. */
  function Badges(labels: Labels, techs: seq<Finding>): (rows: seq<Row>)
    ensures |rows| == |techs|
    ensures forall i :: 0 <= i < |techs| ==> rows[i] == BadgeRow(labels, techs[i])
    decreases |techs|
  {
    if |techs| == 0 then [] else [BadgeRow(labels, techs[0])] + Badges(labels, techs[1..])
  }

  /** Rendering a concatenation renders the two parts one after the other. */
  lemma BadgesAppend(labels: Labels, a: seq<Finding>, b: seq<Finding>)
    ensures Badges(labels, a + b) == Badges(labels, a) + Badges(labels, b)
  {
    var l := Badges(labels, a + b);
    var r := Badges(labels, a) + Badges(labels, b);
    assert forall i :: 0 <= i < |l| ==> l[i] == r[i];
  }

  /** The rows of one category: the `noTechDetected` placeholder when it is empty, otherwise
      one badge per finding, duplicates included. */
  function RenderCategory(labels: Labels, techs: seq<Finding>): (rows: seq<Row>)
    ensures |techs| == 0 ==> rows == [NoTech(labels.noTech)]
    ensures |techs| > 0 ==> |rows| == |techs| && forall i :: 0 <= i < |techs| ==> rows[i] == BadgeRow(labels, techs[i])
    ensures |rows| >= 1
  {
    if |techs| == 0 then [NoTech(labels.noTech)] else Badges(labels, techs)
  }

  /** In English the placeholder of an empty category reads "Not detected". */
  lemma EnglishPlaceholder(browserLang: string)
    requires CurrentLanguage(browserLang) == "en"
    ensures RenderCategory(LabelsFor(browserLang), []) == [NoTech(Text("Not detected"))]
  {
    EnglishNoTechDetected();
  }

  /** The element id of a category's container in the popup page. */
  function ElementId(c: Category): string
  {
    match c
    case Frameworks => "frameworks"
    case CssFrameworks => "css-frameworks"
    case Analytics => "analytics"
    case Cms => "cms"
    case Libraries => "libraries"
    case Backend => "backend"
    case Databases => "databases"
    case Hosting => "hosting"
  }

  /** One rendered category: the container's element id and its rows. */
  datatype Section = Section(id: string, rows: seq<Row>)

  function RenderSection(labels: Labels, report: Report, c: Category): Section
  {
    Section(ElementId(c), RenderCategory(labels, report.Get(c)))
  }

  /** `displayResults`: the eight categories rendered in the fixed category order. */
  function RenderReport(labels: Labels, report: Report): (sections: seq<Section>)
    ensures |sections| == |AllCategories|
    ensures forall i :: 0 <= i < |AllCategories| ==> sections[i] == RenderSection(labels, report, AllCategories[i])
  {
    [RenderSection(labels, report, Frameworks),
     RenderSection(labels, report, CssFrameworks),
     RenderSection(labels, report, Analytics),
     RenderSection(labels, report, Cms),
     RenderSection(labels, report, Libraries),
     RenderSection(labels, report, Backend),
     RenderSection(labels, report, Databases),
     RenderSection(labels, report, Hosting)]
  }

  /** The category whose container has element id `id`, if any. */
  function CategoryOfId(id: string): (c: Option<Category>)
    ensures c.Some? ==> ElementId(c.value) == id
  {
    if id == "frameworks" then Some(Frameworks)
    else if id == "css-frameworks" then Some(CssFrameworks)
    else if id == "analytics" then Some(Analytics)
    else if id == "cms" then Some(Cms)
    else if id == "libraries" then Some(Libraries)
    else if id == "backend" then Some(Backend)
    else if id == "databases" then Some(Databases)
    else if id == "hosting" then Some(Hosting)
    else None
  }

  /** Every container id leads back to its category, so distinct categories have distinct
      containers. */
  lemma ElementIdRoundTrip(c: Category)
    ensures CategoryOfId(ElementId(c)) == Some(c)
  {
    match c
    case Frameworks =>
    case CssFrameworks =>
    case Analytics =>
    case Cms =>
    case Libraries =>
    case Backend =>
    case Databases =>
    case Hosting =>
  }

  /** Each category is rendered into its own container with its own rows, at its place
      in the fixed order. */
  lemma RenderReportCoversCategory(labels: Labels, report: Report, c: Category)
    ensures RenderReport(labels, report)[CategoryIndex(c)] == RenderSection(labels, report, c)
  {
  }

  /** No two sections of a rendered report share a container. */
  lemma RenderReportIdsDistinct(labels: Labels, report: Report)
    ensures var s := RenderReport(labels, report);
            forall i, j :: 0 <= i < j < |s| ==> s[i].id != s[j].id
  {
    var s := RenderReport(labels, report);
    CategoriesEnumerated();
    forall i, j | 0 <= i < j < |s| ensures s[i].id != s[j].id {
      ElementIdRoundTrip(AllCategories[i]);
      ElementIdRoundTrip(AllCategories[j]);
    }
  }
}

=== FILE: strings.dfy ===
/** Optional values: JavaScript's `undefined` for a property that may be absent. */
module Options {

  datatype Option<+T> = None | Some(value: T)
}

/** The handful of string operations the extension's classifiers are built from:
    `includes`, `startsWith`, `endsWith`, ASCII lower-casing and the anchored
    regex shape `tok(?:[stops]|$)`. */
module Strings {

  /** `sub` occurs in `s` starting at index `i`. */
  predicate OccursAt(s: string, sub: string, i: int)
  {
    0 <= i && i + |sub| <= |s| && s[i..i + |sub|] == sub
  }

  lemma {:induction false} OccursAtTail(s: string, sub: string, j: int)
    requires |s| > 0 && 0 <= j
    ensures OccursAt(s[1..], sub, j) <==> OccursAt(s, sub, j + 1)
  {
    if j + |sub| <= |s| - 1 {
      assert s[1..][j..j + |sub|] == s[j + 1..j + 1 + |sub|];
    }
  }

  /** JavaScript `s.includes(sub)`: true exactly when `sub` occurs somewhere in `s`. */
  function Contains(s: string, sub: string): (r: bool)
    ensures r <==> exists i :: OccursAt(s, sub, i)
    decreases |s|
  {
    if |s| < |sub| then false
    else if s[..|sub|] == sub then
      assert OccursAt(s, sub, 0);
      true
    else
      var r := Contains(s[1..], sub);
      assert r ==> exists i :: OccursAt(s, sub, i) by {
        if r {
          var j :| OccursAt(s[1..], sub, j);
          OccursAtTail(s, sub, j);
        }
      }
      assert (exists i :: OccursAt(s, sub, i)) ==> r by {
        if exists i :: OccursAt(s, sub, i) {
          var i :| OccursAt(s, sub, i);
          assert i != 0;
          OccursAtTail(s, sub, i - 1);
        }
      }
      r
  }

  /** JavaScript `s.startsWith(p)`. */
  predicate StartsWith(s: string, p: string)
  {
    |p| <= |s| && s[..|p|] == p
  }

  /** JavaScript `s.endsWith(p)`. */
  predicate EndsWith(s: string, p: string)
  {
    |p| <= |s| && s[|s| - |p|..] == p
  }

  /** ASCII lower-casing of one character; every other character is kept. */
  function LowerChar(c: char): char
  {
    if 'A' <= c <= 'Z' then (c as int + 32) as char else c
  }

  /** `s.toLowerCase()` restricted to ASCII letters. */
  function Lower(s: string): (r: string)
    ensures |r| == |s|
    ensures forall i :: 0 <= i < |s| ==> r[i] == LowerChar(s[i])
  {
    seq(|s|, i requires 0 <= i < |s| => LowerChar(s[i]))
  }

  /** An occurrence of `tok` at `i` that either ends `s` or is followed by a character of `stops`:
      the regex shape `tok(?:[stops]|$)` without the multi-line flag. */
  predicate TokenEndsAt(s: string, tok: string, stops: set<char>, i: int)
  {
    0 <= i && i + |tok| <= |s| && s[i..i + |tok|] == tok
    && (i + |tok| == |s| || s[i + |tok|] in stops)
  }

  /** Searches `s` from index `from` on for an occurrence of `tok` that ends the string or is
      followed by a stop character. */
  function FindTokenEnd(s: string, tok: string, stops: set<char>, from: nat): (r: bool)
    requires from <= |s|
    ensures r <==> exists i :: from <= i && TokenEndsAt(s, tok, stops, i)
    decreases |s| - from
  {
    if |s| - from < |tok| then false
    else if TokenEndsAt(s, tok, stops, from) then true
    else
      var r := FindTokenEnd(s, tok, stops, from + 1);
      assert (exists i :: from <= i && TokenEndsAt(s, tok, stops, i)) ==> r by {
        if exists i :: from <= i && TokenEndsAt(s, tok, stops, i) {
          var i :| from <= i && TokenEndsAt(s, tok, stops, i);
          assert i != from;
        }
      }
      r
  }
}

=== FILE: translations.dfy ===
/** The popup's translation tables and the lookup `t(key)`: a dotted key walks the nested
    tables of the browser's language, falling back to the key itself. */
module Translations {

  import opened Options

  /** A translation entry: a string, or a nested table of entries. */
  datatype Value = Text(s: string) | Table(entries: map<string, Value>)

  const En: Value := Table(map[
    "title" := Text("🔍 Tech Detector"),
    "analyzing" := Text("Analyzing technologies..."),
    "error" := Text("Technology detection failed."),
    "noTechDetected" := Text("Not detected"),
    "copyJson" := Text("Copy JSON"),
    "copied" := Text("Copied!"),
    "failed" := Text("Failed"),
    "inferred" := Text("Inferred"),
    "viaHeaders" := Text("Detected via headers"),
    "inferredLabel" := Text("via inferred"),
    "viaHeadersLabel" := Text("via headers"),
    "testSites" := Text("Test Sites"),
    "legendTitle" := Text("Legend"),
    "categories" := Table(map[
      "frameworks" := Text("JavaScript Frameworks"),
      "cssFrameworks" := Text("CSS Frameworks"),
      "analytics" := Text("Analytics & Tracking"),
      "cms" := Text("CMS & Platforms"),
      "libraries" := Text("Libraries"),
      "backend" := Text("Backend Technologies"),
      "databases" := Text("Databases"),
      "hosting" := Text("Hosting & CDN")])])

  const Tr: Value := Table(map[
    "title" := Text("🔍 Teknoloji Dedektörü"),
    "analyzing" := Text("Teknolojiler analiz ediliyor..."),
    "error" := Text("Teknoloji tespiti yapılamadı."),
    "noTechDetected" := Text("Tespit edilemedi"),
    "copyJson" := Text("JSON Kopyala"),
    "copied" := Text("Kopyalandı!"),
    "failed" := Text("Başarısız"),
    "inferred" := Text("Çıkarım"),
    "viaHeaders" := Text("Başlıklar ile tespit"),
    "inferredLabel" := Text("çıkarım yoluyla"),
    "viaHeadersLabel" := Text("başlıklar ile"),
    "testSites" := Text("Test Siteleri"),
    "legendTitle" := Text("Açıklamalar"),
    "categories" := Table(map[
      "frameworks" := Text("JavaScript Framework'leri"),
      "cssFrameworks" := Text("CSS Framework'leri"),
      "analytics" := Text("Analitik & Takip"),
      "cms" := Text("CMS & Platformlar"),
      "libraries" := Text("Kütüphaneler"),
      "backend" := Text("Backend Teknolojileri"),
      "databases" := Text("Veritabanları"),
      "hosting" := Text("Hosting & CDN")])])

  /** The language tables, by two-letter language code. */
  const Languages: map<string, Value> := map["en" := En, "tr" := Tr]

  /** `navigator.language.slice(0, 2)`. */
  function Prefix2(lang: string): (p: string)
    ensures |p| <= 2 && p <= lang
    ensures |lang| >= 2 ==> |p| == 2
  {
    if |lang| <= 2 then lang else lang[..2]
  }

  /** The language whose table is used: the browser language's two-letter prefix when a
      table exists for it, English otherwise. */
  function CurrentLanguage(browserLang: string): (l: string)
    ensures l in Languages
    ensures l == "en" || l == "tr"
    ensures Prefix2(browserLang) in Languages <==> l == Prefix2(browserLang)
  {
    var p := Prefix2(browserLang);
    if p in Languages then p else "en"
  }

  /** `parts.join(sep)`. */
  function Join(parts: seq<string>, sep: char): string
    requires |parts| >= 1
  {
    if |parts| == 1 then parts[0] else parts[0] + [sep] + Join(parts[1..], sep)
  }

  /** `s.split(sep)` for a one-character separator: the pieces between separators, empty
      pieces included, at least one piece. */
  function Split(s: string, sep: char): (parts: seq<string>)
    ensures |parts| >= 1
    ensures forall i :: 0 <= i < |parts| ==> sep !in parts[i]
    ensures Join(parts, sep) == s
    decreases |s|
  {
    if |s| == 0 then [""]
    else
      var rest := Split(s[1..], sep);
      if s[0] == sep then
        var parts := [""] + rest;
        assert parts[1..] == rest;
        assert Join(parts, sep) == [sep] + Join(rest, sep);
        parts
      else
        var parts := [[s[0]] + rest[0]] + rest[1..];
        assert forall i :: 1 <= i < |parts| ==> parts[i] == rest[i];
        assert Join(parts, sep) == [s[0]] + Join(rest, sep) by {
          if |rest| > 1 {
            assert parts[1..] == rest[1..];
          }
        }
        parts
  }

  /** A piece without separators splits to itself. */
  lemma {:induction false} SplitNoSep(w: string, sep: char)
    requires sep !in w
    ensures Split(w, sep) == [w]
    decreases |w|
  {
    if |w| > 0 {
      SplitNoSep(w[1..], sep);
      assert [w[0]] + w[1..] == w;
    }
  }

  /** Splitting `w + sep + rest` yields `w` followed by the pieces of `rest`. */
  lemma {:induction false} SplitCons(w: string, sep: char, rest: string)
    requires sep !in w
    ensures Split(w + [sep] + rest, sep) == [w] + Split(rest, sep)
    decreases |w|
  {
    if |w| == 0 {
      assert w + [sep] + rest == [sep] + rest;
      assert ([sep] + rest)[1..] == rest;
    } else {
      var s := w + [sep] + rest;
      assert s[1..] == w[1..] + [sep] + rest;
      SplitCons(w[1..], sep, rest);
      assert [w[0]] + w[1..] == w;
    }
  }

  /** Splitting undoes joining pieces that contain no separator. */
  lemma {:induction false} SplitJoin(parts: seq<string>, sep: char)
    requires |parts| >= 1
    requires forall i :: 0 <= i < |parts| ==> sep !in parts[i]
    ensures Split(Join(parts, sep), sep) == parts
    decreases |parts|
  {
    if |parts| == 1 {
      SplitNoSep(parts[0], sep);
    } else {
      SplitJoin(parts[1..], sep);
      SplitCons(parts[0], sep, Join(parts[1..], sep));
      assert [parts[0]] + parts[1..] == parts;
    }
  }

  /** `value?.[k]`: a table's entry, or nothing for a missing entry, a string or nothing. */
  function Step(v: Option<Value>, k: string): (r: Option<Value>)
    ensures r.Some? <==> v.Some? && v.value.Table? && k in v.value.entries
  {
    if v.Some? && v.value.Table? && k in v.value.entries then Some(v.value.entries[k]) else None
  }

  /** The loop of `t`: one step per key segment. */
  function Walk(v: Option<Value>, keys: seq<string>): Option<Value>
    decreases |keys|
  {
    if |keys| == 0 then v else Walk(Step(v, keys[0]), keys[1..])
  }

  /** Walking a concatenated path walks its two halves in turn. */
  lemma {:induction false} WalkAppend(v: Option<Value>, a: seq<string>, b: seq<string>)
    ensures Walk(v, a + b) == Walk(Walk(v, a), b)
    decreases |a|
  {
    if |a| == 0 {
      assert a + b == b;
    } else {
      assert (a + b)[0] == a[0];
      assert (a + b)[1..] == a[1..] + b;
      WalkAppend(Step(v, a[0]), a[1..], b);
      assert Walk(v, a + b) == Walk(Step(v, a[0]), a[1..] + b);
      assert Walk(v, a) == Walk(Step(v, a[0]), a[1..]);
    }
  }

  /** Once a segment is missing, the rest of the walk finds nothing. */
  lemma {:induction false} WalkFromNothing(keys: seq<string>)
    ensures Walk(None, keys) == None
    decreases |keys|
  {
    if |keys| > 0 {
      WalkFromNothing(keys[1..]);
    }
  }

  /** JavaScript truthiness of a looked-up value: anything but nothing and the empty string. */
  predicate Truthy(v: Option<Value>)
  {
    v.Some? && v.value != Text("")
  }

  /** What the dotted `key` resolves to in the table of `lang`. */
  function Resolve(lang: string, key: string): Option<Value>
    requires lang in Languages
  {
    Walk(Some(Languages[lang]), Split(key, '.'))
  }

  /** `t(key)`: the value the dotted key resolves to in the current language's table, or the
      key itself when the path is missing or resolves to an empty string. */
  function T(browserLang: string, key: string): (r: Value)
    ensures Truthy(Resolve(CurrentLanguage(browserLang), key)) ==> r == Resolve(CurrentLanguage(browserLang), key).value
    ensures !Truthy(Resolve(CurrentLanguage(browserLang), key)) ==> r == Text(key)
    ensures r == Text("") ==> key == ""
  {
    var v := Resolve(CurrentLanguage(browserLang), key);
    if Truthy(v) then v.value else Text(key)
  }

  /** A path whose first segment names no entry of `v` finds nothing. */
  lemma WalkMissingHead(v: Value, keys: seq<string>)
    requires |keys| >= 1 && v.Table? && keys[0] !in v.entries
    ensures Walk(Some(v), keys) == None
  {
    WalkFromNothing(keys[1..]);
  }

  /** A key whose first segment names no entry of the current table comes back unchanged. */
  lemma MissingKeyFallsBack(browserLang: string, key: string)
    requires Languages[CurrentLanguage(browserLang)].Table?
    requires Split(key, '.')[0] !in Languages[CurrentLanguage(browserLang)].entries
    ensures T(browserLang, key) == Text(key)
  {
    var keys := Split(key, '.');
    WalkMissingHead(Languages[CurrentLanguage(browserLang)], keys);
  }

  /** A browser language without a table of its own reads every key from English. */
  lemma UnknownLanguageUsesEnglish(browserLang: string, key: string)
    requires Prefix2(browserLang) !in Languages
    ensures T(browserLang, key) == T("en", key)
  {
  }

  /** A one-segment path takes one step. */
  lemma WalkOne(v: Option<Value>, a: string)
    ensures Walk(v, [a]) == Step(v, a)
  {
    assert [a][1..] == [];
    assert Walk(v, [a]) == Walk(Step(v, a), []);
  }

  /** A two-segment path takes two steps. */
  lemma WalkTwo(v: Option<Value>, a: string, b: string)
    ensures Walk(v, [a, b]) == Step(Step(v, a), b)
  {
    assert [a, b][1..] == [b];
    assert [b][1..] == [];
    assert Walk(v, [a, b]) == Walk(Step(v, a), [b]);
    assert Walk(Step(v, a), [b]) == Walk(Step(Step(v, a), b), []);
  }

  /** The dotted key `categories.backend` names the path of two segments. */
  lemma SplitCategoriesBackend()
    ensures Split("categories.backend", '.') == ["categories", "backend"]
  {
    assert "categories.backend" == Join(["categories", "backend"], '.');
    SplitJoin(["categories", "backend"], '.');
  }

  /** `t('categories.backend')` yields the backend category label of the current language. */
  lemma BackendCategoryLabel(browserLang: string)
    ensures T(browserLang, "categories.backend")
         == if CurrentLanguage(browserLang) == "tr" then Text("Backend Teknolojileri") else Text("Backend Technologies")
  {
    var lang := CurrentLanguage(browserLang);
    SplitCategoriesBackend();
    WalkTwo(Some(Languages[lang]), "categories", "backend");
    if lang == "tr" {
      assert Tr.entries["categories"].entries["backend"] == Text("Backend Teknolojileri");
    } else {
      assert En.entries["categories"].entries["backend"] == Text("Backend Technologies");
    }
  }

  /** The English table maps itself under its code. */
  lemma EnglishTable()
    ensures Languages["en"] == En
  {
  }

  /** The English table's placeholder entry. */
  lemma EnglishNoTechEntry()
    ensures En.entries["noTechDetected"] == Text("Not detected")
  {
  }

  /** The English placeholder for an empty category is "Not detected". */
  lemma EnglishNoTechDetected()
    ensures Resolve("en", "noTechDetected") == Some(Text("Not detected"))
  {
    SplitNoSep("noTechDetected", '.');
    EnglishTable();
    EnglishNoTechEntry();
    WalkOne(Some(En), "noTechDetected");
  }
}
